=== FILE: README.md ===
# Adaptive Data Extraction: a Dafny model of the pipeline interpreter

Adaptive Data Extraction runs declarative pipelines. A configuration is an
ordered list of *action descriptors*. Each descriptor is a JSON-like object
whose `type` names a handler. The descriptors run against one shared, mutable
*context*, a key/value store of intermediate results.

This project models the interpreter at the heart of the system and proves
properties of it:

- **Dispatcher** (`processActions`). Each descriptor is resolved against the
  context as it stands. Every `${word}` in its strings is replaced by
  `context[word] || ''` (`resolveContextKeys`). The handler is then looked up
  by the resolved `type`, built-ins before plugins, and run. Its result is
  stored under `outputKey` when that key is truthy. An unknown type is
  reported and skipped.
- **Built-in actions**:
  - `loop` and `condition` re-enter the dispatcher with a nested list and the
    same context.
  - `setContext`, `deleteContext`, `log` and `transform` work on the context.
  - `query`, `queryAll` and `fetch` reach the page or the network.
- **Condition predicate** (`applyCondition`). It recognises ten condition
  names. An unknown name fails closed.
- **Built-in transformations**: `uppercase`, `lowercase`, `replace`, `split`
  and `jsonParse`. A further one, `transform`, chains to another
  transformation by name.
- **Plugin registry**: two name-to-handler maps, filled by `registerAction`
  and `registerTransformation`.

The model is purely functional:

- A run is a function from a `State` to an `Outcome`. The state is the
  context plus the transcript of console output.
- The outcome either completes (`Ok`) with the handler's return value, or
  rejects (`Threw`) with a JavaScript fault and the state reached so far.
- The page, the network and `JSON.parse` are parameters. These are the
  `Env` record and the `JsonParser` function.
- Plugin handlers are arbitrary total functions.

Modules, one per concern:

| file | module | what it holds |
|---|---|---|
| `text.dfy` | `Text` | `split`, `join`, `includes`, ASCII case mapping, string `<` |
| `values.dfy` | `Values` | JavaScript values, truthiness, `String(v)`, `Number(v)`, property reads, `for…of` |
| `effects.dfy` | `Effects` | console events, faults, state and outcome |
| `plugin.dfy` | `Plugin` | the registry and the two-tier lookup |
| `conditions.dfy` | `Conditions` | `applyCondition` |
| `resolver.dfy` | `Resolver` | `${word}` interpolation and `resolveContextKeys` |
| `transformations.dfy` | `Transformations` | the built-in transformations and the chain |
| `actions.dfy` | `Actions` | the non-dispatching built-in actions |
| `pipeline.dfy` | `Pipeline` | the dispatcher, `loop` and `condition` (mutually recursive) |
| `properties.dfy` | `PipelineProperties` | whole-run properties of the dispatcher |
| `examples.dfy` | `PipelineExamples` | worked runs of concrete configurations |

### Placeholders in nested lists are resolved early

A descriptor is resolved *as a whole* when its turn comes, and that
includes any nested `actions` list. So the body of a `loop` or `condition`
has its placeholders filled before the loop has stored a single item. Each
nested descriptor is resolved again when it runs, against the context as it
is then. The second pass of a `log` message acts on every `${word}` in the
first pass's output. That includes placeholders inserted from context
values (`PipelineExamples.LogSecondPass`) and placeholders formed by joining
configuration text with substituted text: with `k` unset, "$${k}{y}" becomes
"${y}" and then `context.y` (`PipelineExamples.LogFormedPlaceholder`).

Take the loop over `["x", "y", "z"]` whose body sets `last` to `${it}`. It is
easy to expect it to end with `last` = "z", the last item. The code ends
with `it` = "z" and `last` = "". The model follows the code, in
`PipelineExamples.LoopExample`.

### Unknown action types

The dispatcher looks a handler up by `type` only. A descriptor that carries
only a `transformation` and no `type` is therefore not run. It is reported
by its transformation name, as `action.transformation || action.type` on
the *raw* descriptor, and skipped.

## Model

| member | source | states |
|---|---|---|
| Text.SplitJoinRoundTrip | src/transformations.js:14 | Joining the pieces of `s.split(d)` with `d` gives `s` back, for every separator, the empty one included. |
| Text.SplitPieceCount | src/transformations.js:17-20 | A split at a non-empty separator yields exactly one piece more than the separator has non-overlapping occurrences. |
| Text.SplitPiecesAvoidSeparator | src/transformations.js:17-20 | No piece of a split contains the separator. |
| Text.OccurrencesZeroIffAbsent | src/conditions.js:16-17 | A separator has no occurrence exactly when `includes` is false, in both directions. |
| Text.SplitAbsent | src/transformations.js:14 | When the separator does not occur, the split is the whole string as a single piece. |
| Text.UppercaseProperties | src/transformations.js:3-5 | Upper-casing keeps the length, leaves no lower-case ASCII letter, changes only lower-case letters (each by the ASCII offset) and is idempotent. |
| Text.LowercaseProperties | src/transformations.js:7-9 | The mirror image for lower-casing. |
| Text.StrLessTrichotomy | src/conditions.js:8-15 | Exactly one of `a < b`, `a == b`, `b < a` holds for two strings. |
| Values.IntToDecimalRoundTrip | src/conditions.js:8-15 | `Number(String(n))` is `n`: reading back a printed integer gives the integer. |
| Plugin.NewRegistry | src/plugin.js:2-5 | The registry starts with no action and no transformation. |
| Plugin.RegisterAction | src/plugin.js:7-9 | After registration the name gives the new handler. Every other action name and the whole transformation map are unchanged. |
| Plugin.RegisterTransformation | src/plugin.js:11-13 | The same, for transformations; the action map is unchanged. |
| Plugin.RegisterActionLastWins | src/plugin.js:7-9 | Registering an action name twice keeps only the second handler. |
| Plugin.RegisterTransformationLastWins | src/plugin.js:11-13 | Registering a transformation name twice keeps only the second handler. |
| Plugin.LookupTiers | src/processActions.js:40 | A plugin never shadows a built-in of the same name, and it is found whenever no built-in has that name. A lookup misses exactly when neither tier has the name. |
| Conditions.ApplyCondition | src/conditions.js:2-28 | The `switch` of `applyCondition`. What each case means is stated by EqualsIsStrictEquals, OrderingDuality, OrderingMeaning, ContainsMeaning, DoesNotContainNegates, EmptyMeaning and UnknownConditionIsFalse. |
| Conditions.EqualsIsStrictEquals | src/conditions.js:4-7 | `equals` and `strictEquals` agree on every input. Both hold exactly when the expected value is a primitive identical to the value. |
| Conditions.CompareFlips | src/conditions.js:8-15 | Swapping the operands of the relational comparison flips its result. |
| Conditions.OrderingDuality | src/conditions.js:8-15 | On all inputs, `greaterThan(a, b)` is `lessThan(b, a)` and `<` and `>` never both hold. On ordered operands `>=` and `<=` are the negations of `<` and `>`. When either side is NaN all four are false. |
| Conditions.OrderingMeaning | src/conditions.js:8-15 | Integers compare numerically and strings by characters. A numeric text against a number compares as a number. `undefined` is never ordered. |
| Conditions.PrintedNumberComparesAsNumber | src/conditions.js:8-13 | `String(x) > y` and `String(x) < y` are `x > y` and `x < y`. |
| Conditions.ContainsMeaning | src/conditions.js:16-17 | `contains` is substring search on strings and membership on arrays. On any other value it throws. |
| Conditions.DoesNotContainNegates | src/conditions.js:16-19 | `doesNotContain` is the exact negation of `contains`, and throws exactly when it throws. |
| Conditions.EmptyMeaning | src/conditions.js:20-23 | `empty` holds of "" only, so `null` is not empty. `isNotEmpty` is its negation. |
| Conditions.UnknownConditionIsFalse | src/conditions.js:24-26 | Every unrecognised condition name, a non-string one included, evaluates to false. |
| Conditions.ConditionExamples | src/conditions.js:2-28 | Sample evaluations: 5 > 3; "" is empty; "a" contains "a". |
| Resolver.Interpolate | src/processActions.js:57 | One global left-to-right replace of `${word}`. Specified by InterpolatePlain, InterpolateLiteral, InterpolateToken and LookupBlanks. |
| Resolver.Resolve | src/processActions.js:55-72 | `resolveContextKeys`. Specified by ResolveKeepsShape, ResolvePlain and ResolveHeight, and through Interpolate on strings. |
| Resolver.ResolveHeight | src/processActions.js:55-72 | Resolution never changes how deeply a descriptor nests, since arrays and objects are rebuilt element by element. |
| Resolver.TokenAt | src/processActions.js:57 | A recognised placeholder is literally `${` + a non-empty word + `}` at the head of the text. |
| Resolver.InterpolatePlain | src/processActions.js:57 | A text without placeholders is unchanged by resolution. |
| Resolver.InterpolateLiteral | src/processActions.js:57 | Text without `$` is copied verbatim and the scan continues after it. |
| Resolver.InterpolateDollarFree | src/processActions.js:57 | A text without `$` resolves to itself, whatever the context. |
| Resolver.InterpolateToken | src/processActions.js:57 | `${k}` becomes `context[k]` when that is truthy, else "", and the scan resumes after the brace; substituted text is not rescanned. |
| Resolver.LookupBlanks | src/processActions.js:57 | A missing key and every falsy value become "". A string becomes itself and a non-zero number its decimal text. |
| Resolver.InterpolateExample | src/processActions.js:57 | `x=${foo}` with `foo` = "bar" gives "x=bar". |
| Resolver.InterpolateMissingExample | src/processActions.js:57 | `x=${missing}` with no `missing` gives "x=". |
| Resolver.ResolveKeepsShape | src/processActions.js:55-72 | Resolution keeps the shape of a descriptor: array lengths and order, object key sets (keys are never resolved) and every non-string leaf. |
| Resolver.ResolvePlain | src/processActions.js:55-72 | A descriptor with no placeholder anywhere resolves to itself. |
| Transformations.Invoke | src/transformations.js:2-41 | No transformation changes the context; the console transcript only grows. |
| Transformations.ChainStep | src/transformations.js:31-40 | The chain leaves the context as it was and terminates: every hop descends into `params`. |
| Transformations.ChainStepAsWritten | src/transformations.js:33 | The chain as written; it leaves the context untouched too. |
| Transformations.BuiltinTransformationWins | src/transformations.js:33 | A plugin registered under a built-in transformation name is never reached. |
| Transformations.PluginTransformationFound | src/transformations.js:33 | A plugin registered under any other name is what the lookup finds. |
| Transformations.CaseMap | src/transformations.js:3-9 | `toUpperCase`/`toLowerCase` on the value. Specified by CaseFolding and Text.UppercaseProperties/LowercaseProperties. |
| Transformations.ReplaceIn | src/transformations.js:11-15 | `value.split(search)` joined with `context[replacement]`, or with the literal `replacement` when that entry is falsy. Specified by ReplaceAbsent and ReplaceInserts. |
| Transformations.ReplacementValue | src/transformations.js:13 | The context entry named by `replacement` when that entry is truthy, else `replacement` itself. Specified through ReplaceInserts. |
| Transformations.LookupTransformation | src/transformations.js:33 | The built-in transformation of that name, else the plugin one. The same lookup serves src/actions.js:73. Specified by Plugin.LookupTiers, BuiltinTransformationWins and PluginTransformationFound. |
| Transformations.SplitValue | src/transformations.js:17-20 | `value.split(delimiter)` with "," by default. Specified by SplitDefaultsToComma and SplitRoundTrip. |
| Transformations.ParseJson | src/transformations.js:22-29 | The context is untouched. The parsed value is returned silently exactly when the text parses; otherwise the result is `null` and one "Invalid JSON" report is written. |
| Transformations.CaseFolding | src/transformations.js:3-9 | On a string, `uppercase`/`lowercase` succeed, keep the length and are idempotent. On anything else they throw. |
| Transformations.SplitDefaultsToComma | src/transformations.js:17-20 | `split` with no configured delimiter is `split` at ",". |
| Transformations.SplitRoundTrip | src/transformations.js:17-20 | For a non-empty delimiter, `split` yields only strings, one more than the delimiter's occurrences. They join back to the input and none contains the delimiter. |
| Transformations.ReplaceAbsent | src/transformations.js:11-15 | `replace` leaves a string without the search text unchanged. |
| Transformations.ReplaceInserts | src/transformations.js:11-15 | Every occurrence is replaced by `context[replacement]` when truthy, else by the literal replacement. Replacing the search text with itself changes nothing. Both hold for every search text, the empty one included. |
| Transformations.ChainRoutes | src/transformations.js:31-35 | The chain hands the value and `config.params` to the handler `config.transformation` names, built-in first. |
| Transformations.ChainReachesPlugin | src/transformations.js:33-35 | A plugin reached through the chain gets the value and `params`, and its result is the chain's result. |
| Transformations.ChainUnknownKeepsValue | src/transformations.js:36-38 | The chain on an unknown name reports it and returns the value unchanged. |
| Transformations.ChainAsWrittenMissesPlugins | src/transformations.js:33 | As written, chaining to a registered plugin throws a ReferenceError; the intended chain calls the plugin. |
| Transformations.ChainAsWrittenAgreesOnBuiltins | src/transformations.js:33 | On every built-in name other than the chain itself, the as-written and intended chains agree. |
| Actions.Defaulted | src/actions.js:55 | A destructuring default replaces `undefined` only; every other value, `null` included, is kept. |
| Actions.Query | src/actions.js:44-47 | `query` returns the first match's text, or `null` exactly when nothing matches; the state is unchanged. |
| Actions.QueryAll | src/actions.js:49-52 | `queryAll` returns one text per match, in order; the state is unchanged. |
| Actions.Fetch | src/actions.js:54-58 | `fetch` passes the url, and `method`, `data` and `responseType` each default on their own to "GET", `null` and "json" when absent, whatever the other fields are. The state is unchanged. |
| Actions.SetContext | src/actions.js:60-62 | `setContext` stores the value under the key, even when the value is absent, and changes nothing else. |
| Actions.DeleteContext | src/actions.js:64-66 | `deleteContext` removes the key and changes nothing else; deleting an absent key is a no-op. |
| Actions.Log | src/actions.js:68-70 | `log` succeeds exactly when the message is a string. It appends the message with placeholders filled from the context. A non-string message throws and changes nothing. |
| Actions.TransformAction | src/actions.js:72-79 | `transform` never changes the context. An unknown transformation is reported and yields `undefined`. |
| Actions.TransformActionAsWritten | src/actions.js:73 | As written, every `transform` action throws before doing anything. |
| Actions.SetThenDelete | src/actions.js:60-66 | Deleting a key just set leaves the context as it was, less that key; for a fresh key the pair is a no-op. |
| Actions.SetContextLastWins | src/actions.js:60-62 | Two writes to one key equal the second write alone. |
| Actions.TransformPrefersBuiltin | src/actions.js:73-76 | For every built-in transformation name, a plugin registered under it is never called: the built-in runs on `context[inputKey]` with the descriptor as configuration (for `uppercase`, the upper-cased input). |
| Actions.TransformCallsPlugin | src/actions.js:73-75 | A plugin transformation receives `context[inputKey]`, the descriptor and the context, and its result is the action's result. |
| Actions.LogPlain | src/actions.js:68-70 | A message without placeholders is logged exactly as written. |
| Actions.TransformActionAsWrittenThrows | src/actions.js:73 | On `uppercase` of "a", the action as written throws, while the intended action returns "A". |
| Pipeline.LookupAction | src/processActions.js:40 | The built-in action of that name, else the plugin action of that name. Specified by Plugin.LookupTiers, BuiltinActionWins and PluginActionRuns. |
| Pipeline.ScopeOf | src/processActions.js:34-38 | Selectors search the context entry `contextKey` names when both the name and the entry are truthy, and the document otherwise. |
| Pipeline.StoreOutput | src/processActions.js:45-47 | A truthy `outputKey` receives the handler's result, `undefined` included, and every other entry is kept. Without one the outcome passes through; a throw propagates. |
| Pipeline.Run | src/processActions.js:28-53 | A completed run returns the context itself, and console output is only ever appended. |
| Pipeline.Step | src/processActions.js:29-51 | One dispatch step never erases console output. |
| Pipeline.Perform | src/processActions.js:43-44 | Running a handler never erases console output. |
| Pipeline.Loop | src/actions.js:25-32 | `loop` never erases console output and returns `undefined`. |
| Pipeline.LoopIter | src/actions.js:28-31 | The iterations never erase console output and return `undefined`. |
| Pipeline.LoopItems | src/actions.js:26 | `context[inputKey]`, or `[]` when that entry is falsy. Specified by LoopSkipsFalsyInput, LoopRejectsNonIterable and LoopEndsAtLastItem. |
| Pipeline.Branch | src/actions.js:35-36 | The list a verdict selects. Specified by ConditionRunsChosenBranch, ConditionWithoutBranch and ConditionUnknownName. |
| Pipeline.Condition | src/actions.js:34-42 | `condition` returns the context (a branch ran) or `undefined` (no branch). |
| Pipeline.Process | src/processActions.js:28-53 | A completed `processActions` returns the context. |
| PipelineProperties.RunAppend | src/processActions.js:29-51 | Running `xs + ys` is running `xs`, then `ys` on what `xs` left. A throw in `xs` means `ys` never runs. |
| PipelineProperties.UnknownTypeSkipped | src/processActions.js:48-50 | A descriptor without a handler leaves the context alone. It adds one report naming the raw `transformation`, else the raw `type`. |
| PipelineProperties.TransformationOnlyDescriptorNotRun | src/processActions.js:40-50 | A descriptor with a `transformation` but no `type` is not run. It is reported by its transformation name. |
| PipelineProperties.StepStoresOutput | src/processActions.js:43-47 | A step succeeds exactly when its handler does, and a truthy `outputKey` then holds the handler's result. |
| PipelineProperties.BuiltinActionWins | src/processActions.js:40 | A plugin action registered under a built-in name is never looked up. |
| PipelineProperties.PluginActionRuns | src/processActions.js:40-44 | A plugin action under a fresh name gets the resolved descriptor, scope and context, and its reply becomes the new context. |
| PipelineProperties.LoopSkipsFalsyInput | src/actions.js:26 | A falsy input makes the loop run zero times and change nothing. |
| PipelineProperties.LoopRejectsNonIterable | src/actions.js:26-28 | A truthy input that is neither an array nor a string throws before any item is stored. |
| PipelineProperties.LoopIterAppend | src/actions.js:28-31 | Looping over `xs + ys` is looping over `xs` and then over `ys`. |
| PipelineProperties.LoopLeavesLastItem | src/actions.js:28-31 | After a completed loop over a non-empty list, the item key holds the last item, for every body that does not itself rewrite that key. |
| PipelineProperties.LoopEndsAtLastItem | src/actions.js:25-32 | The same for the `loop` action: over a non-empty iterable input, a completed loop leaves `context[itemKey]` at the last item. |
| PipelineProperties.EmptyBodyKeepsKey | src/actions.js:28-31 | The empty body keeps every key, so LoopLeavesLastItem applies to it. |
| PipelineProperties.EmptyLoopKeepsLastItem | src/actions.js:28-31 | After a loop with an empty body the item key holds the last item, and nothing else changed. |
| PipelineProperties.ConditionUnknownName | src/conditions.js:24-26 | An unrecognised condition name is reported and counts as false, so `elseActions` runs on the state holding that report. |
| PipelineProperties.ConditionRunsChosenBranch | src/actions.js:34-38 | A recognised condition runs `actions` when it holds and `elseActions` when it fails, on the same context. A completed branch returns the context. |
| PipelineProperties.ConditionWithoutBranch | src/actions.js:37-41 | When the chosen list is missing, the condition reports it, changes no context entry and returns `undefined`. |
| PipelineProperties.ConditionPropagatesThrow | src/actions.js:35 | A condition whose evaluation throws rejects without running either list. |
| PipelineExamples.StepOfSetContext | src/processActions.js:32-47 | A descriptor that resolves to a `setContext` without `outputKey` is exactly one `setContext` call on the resolved descriptor. |
| PipelineExamples.SetDescriptorStep | src/actions.js:60-62 | `{type: "setContext", key: k, value: v}` with a plain value writes `v` under `k` and nothing else. |
| PipelineExamples.LaterWriteWins | src/processActions.js:29-51 | For any plain key and any two numbers, two `setContext` writes to that key in one configuration leave the second value, whatever the context held; nothing else changes. |
| PipelineExamples.ProcessRuns | src/processActions.js:28-29 | `processActions({actions})` runs that list on the given context with an empty transcript. |
| PipelineExamples.LoopEntry | src/actions.js:26-28 | A loop whose input is iterable walks exactly its elements. |
| PipelineExamples.LoopBodyResolvedEarly | src/processActions.js:32 | Resolving the loop descriptor while `it` is unset turns its body's `${it}` into "", before any iteration. |
| PipelineExamples.ResolvedLoopRuns | src/actions.js:28-31 | Over any non-empty item list, the early-resolved body leaves `it` at the last item and `last` at "". |
| PipelineExamples.LoopExample | src/actions.js:25-32 | Looping over ["x","y","z"] with body `last := ${it}` ends with `it` = "z" and `last` = "". |
| PipelineExamples.UnknownTypeExample | src/processActions.js:48-50 | `{type: "doesNotExist"}` is reported by its type and the context is untouched. |
| PipelineExamples.LogStep | src/actions.js:68-70 | A `log` descriptor logs its message after two passes of placeholder filling: resolution, then the `log` action's own. |
| PipelineExamples.LogSecondPass | src/actions.js:69 | Because of the second pass, with `x` = "${y}" and `y` = "v", logging "${x}" prints "v". |
| PipelineExamples.FormedPlaceholder | src/processActions.js:57 | The first pass can form a placeholder out of configuration text: for any word names `k` and `y` with `k` unset, "$${k}{y}" becomes "${y}". |
| PipelineExamples.LogFormedPlaceholder | src/actions.js:69 | The second pass also expands such a formed placeholder: with `k` unset and `y` holding a string, logging "$${k}{y}" prints `context.y`. |
| PipelineExamples.ChainToPlugin | src/transformations.js:31-35 | The chain on `{transformation: name}` for a plugin calls it with no configuration. |
| PipelineExamples.ChainExample | src/actions.js:72-75 | A `transform` action naming the chain re-reads its own descriptor, descends into `params` and reaches the plugin, which gets `context.v`. |

## Left out

- The page and the network (`query`, `queryAll` and `fetchData` in src/utils.js) are oracles in `Actions.Env`. `logMessage` becomes a transcript entry. utils.js is not part of this model. The oracles are total, so `query`, `queryAll` and `fetch` never throw here; in the source `querySelector` throws on a scope that is not a DOM node and `fetchData` throws on a non-string `method`.
- `JSON.parse` is an opaque partial function (`JsonParser`). No JSON grammar is modelled.
- Asynchrony: every `await` is modelled as running to completion in order. The pipeline never runs siblings concurrently.
- Numbers are unbounded integers. Floating point, NaN as a value, `-0` and the exact float formatting of `String(n)` are left out. `Number(text)` reads only an optional sign followed by decimal digits: texts JavaScript reads as numbers, such as "1.0", ".5", "1e3", "Infinity", "0x1f", "0b1" and "0o7", are NaN in the model.
- Property names inherited from `Object.prototype` (`toString`, `constructor`, …) do not resolve to handlers or context entries.
- Reading a field of a primitive (`"abc".length`, `(5).key`) gives `undefined` in the model. The pipeline only reads descriptor fields.
- `toUpperCase`/`toLowerCase` map ASCII letters only. Unicode case mapping and UTF-16 surrogate pairs are not modelled.
- String `<` compares characters, not UTF-16 code units, outside the basic plane. The white space `Number(text)` trims is the ASCII set plus four common Unicode spaces.
- `===` and `includes` on arrays and objects compare by identity in JavaScript. A condition's comparand is always a fresh copy made by resolution, so the model treats such a comparand as never identical.
- The live context is one `CtxRef` value. Reading through it (`context.ctx.key` after storing a `condition` result) is not modelled, and its string form is "[object Object]".
- Plugin transformations are modelled as pure functions of `(value, config, context)`: they cannot mutate the context they are handed, which JavaScript would allow. "No transformation changes the context" holds for plugins by this choice.
- Plugin handlers are total functions. They do not throw, do not re-enter the dispatcher, and do not register further plugins mid-run. A plugin action's context is what its reply says.
- `processActions(config)` with no second argument uses a fresh `{}`. `Pipeline.Process` takes the context explicitly.
- The unused second lookup in processActions.js:41 has no effect and is not modelled.
- processActions.js:26 imports `./plugins.js`, while the registry is src/plugin.js. The model assumes the import resolves; as written, the module would fail to load.
- Pipeline.Step: the contract only says the transcript grows. What a step computes is stated by PipelineProperties.UnknownTypeSkipped, StepStoresOutput and PluginActionRuns.
- Pipeline.Loop: its own contract is about the transcript and the return value. The iteration itself is stated by LoopSkipsFalsyInput, LoopRejectsNonIterable, LoopIterAppend and LoopEndsAtLastItem. The last-item promise is proved for bodies that do not themselves rewrite the item key (`KeepsKey`); a body that does leaves whatever it wrote.
- Pipeline.Perform: its own contract only says the transcript grows. What each handler does is stated by the members of Actions and by the PipelineProperties lemmas.
- Pipeline.LoopIter: its own contract is about the transcript and the return value. The iteration is stated by LoopIterAppend and LoopLeavesLastItem, the latter for bodies that do not rewrite the item key.
- Transformations.ChainStepAsWritten: its own contract only frames the context; the behaviour that matters is in ChainAsWrittenMissesPlugins.
- Conditions.ConditionExamples: a numeric text against a number is covered generally by PrintedNumberComparesAsNumber, not by a literal example.

## Findings

| source | as written | input that shows it | evidently intended | confidence | as-written member | corrected member |
|---|---|---|---|---|---|---|
| src/actions.js:73 | The `transform` action reads `builtInTransformations` and `plugins`, which actions.js never imports. Every `transform` action therefore throws a ReferenceError. Line 77 would throw as well, naming an undefined `transformation`. | `{type: "transform", transformation: "uppercase", inputKey: "k"}` with `context.k` = "a" | The two-tier lookup runs `uppercase` and returns "A"; an unknown name is reported and yields `undefined`. | high; not executed | Actions.TransformActionAsWritten, Actions.TransformActionAsWrittenThrows | Actions.TransformAction, Actions.TransformPrefersBuiltin |
| src/transformations.js:33 | The `transform` transformation reads `plugins.transformations`, but transformations.js never imports `plugins`. Chaining to any non-built-in name throws a ReferenceError. | `registerTransformation("rev", p)`, then the chain on `{transformation: "rev"}` | The chain calls `p(value, params, context)` and returns its result. | high; not executed | Transformations.ChainStepAsWritten, Transformations.ChainAsWrittenMissesPlugins | Transformations.ChainStep, Transformations.ChainReachesPlugin |

=== FILE: actions.dfy ===
/**
  The built-in actions of src/actions.js that do not dispatch further
  actions: `query`, `queryAll`, `fetch`, `setContext`, `deleteContext`,
  `log` and `transform`. Each receives the resolved descriptor, the scope
  element and the state, and returns the handler's return value. The
  dispatching actions `loop` and `condition` live with the dispatcher.
 */
module Actions {
  import opened Values
  import opened Effects
  import opened Plugin
  import Text
  import Resolver
  import opened Transformations

  /** The browser and the network, seen as functions of their arguments:
      `query` gives the first match's `innerText` (or nothing),
      `queryAll` the `innerText` of every match, `fetch` the response for
      `(url, method, data, responseType)`, `parseJson` is `JSON.parse`. */
  datatype Env = Env(
    query: (Value, Scope) -> Option<string>,
    queryAll: (Value, Scope) -> seq<string>,
    fetch: (Value, Value, Value, Value) -> Value,
    parseJson: JsonParser)

  /** A destructuring default: `{ x = d } = obj` replaces `undefined` only. */
  function Defaulted(v: Value, d: Value): (r: Value)
    ensures v.Undef? ==> r == d
    ensures !v.Undef? ==> r == v
  {
    if v.Undef? then d else v
  }

  function Query(env: Env, a: Value, scope: Scope, st: State): (r: Outcome)
    ensures r.Ok? && r.st == st
    ensures r.ret.Str? || r.ret.Null?
    ensures r.ret.Null? <==> env.query(Field(a, "selector"), scope).None?
    ensures r.ret.Str? ==> env.query(Field(a, "selector"), scope) == Some(r.ret.s)
  {
    match env.query(Field(a, "selector"), scope)
    case Some(text) => Ok(st, Str(text))
    case None => Ok(st, Null)
  }

  function QueryAll(env: Env, a: Value, scope: Scope, st: State): (r: Outcome)
    ensures r.Ok? && r.st == st && r.ret.Arr?
    ensures var texts := env.queryAll(Field(a, "selector"), scope);
            |r.ret.items| == |texts| && forall i :: 0 <= i < |texts| ==> r.ret.items[i] == Str(texts[i])
  {
    var texts := env.queryAll(Field(a, "selector"), scope);
    Ok(st, Arr(seq(|texts|, i requires 0 <= i < |texts| => Str(texts[i]))))
  }

  /** `fetch`: the response for the descriptor's `url`, with `method`,
      `data` and `responseType` each defaulting on its own to "GET",
      `null` and "json" when absent. */
  function Fetch(env: Env, a: Value, st: State): (r: Outcome)
    ensures r.Ok? && r.st == st
    ensures var m := Field(a, "method");
            var d := Field(a, "data");
            var t := Field(a, "responseType");
            r.ret == env.fetch(Field(a, "url"),
                               if m.Undef? then Str("GET") else m,
                               if d.Undef? then Null else d,
                               if t.Undef? then Str("json") else t)
  {
    Ok(st, env.fetch(Field(a, "url"),
                     Defaulted(Field(a, "method"), Str("GET")),
                     Defaulted(Field(a, "data"), Null),
                     Defaulted(Field(a, "responseType"), Str("json"))))
  }

  /** `setContext`: `context[key] = value`, even when `value` is absent
      (the key then holds `undefined`); nothing else changes. */
  function SetContext(a: Value, st: State): (r: Outcome)
    ensures r.Ok? && r.ret.Undef? && r.st.trace == st.trace
    ensures var k := PropertyKey(Field(a, "key"));
            k in r.st.ctx && r.st.ctx[k] == Field(a, "value")
    ensures forall n :: n != PropertyKey(Field(a, "key")) ==>
              (n in r.st.ctx <==> n in st.ctx) && (n in st.ctx ==> r.st.ctx[n] == st.ctx[n])
  {
    Ok(Put(st, PropertyKey(Field(a, "key")), Field(a, "value")), Undef)
  }

  /** `deleteContext`: the key is gone afterwards and every other entry is
      as before; deleting an absent key changes nothing. */
  function DeleteContext(a: Value, st: State): (r: Outcome)
    ensures r.Ok? && r.ret.Undef? && r.st.trace == st.trace
    ensures PropertyKey(Field(a, "key")) !in r.st.ctx
    ensures forall n :: n != PropertyKey(Field(a, "key")) ==>
              (n in r.st.ctx <==> n in st.ctx) && (n in st.ctx ==> r.st.ctx[n] == st.ctx[n])
    ensures PropertyKey(Field(a, "key")) !in st.ctx ==> r.st == st
  {
    Ok(st.(ctx := st.ctx - {PropertyKey(Field(a, "key"))}), Undef)
  }

  /** `log`: writes the message with its placeholders filled from the
      context. The descriptor was resolved already, so this is a second
      pass over the text. A message that is not a string throws. */
  function Log(a: Value, st: State): (r: Outcome)
    ensures r.st.ctx == st.ctx
    ensures r.Ok? <==> Field(a, "message").Str?
    ensures r.Ok? ==> r.ret.Undef?
                      && r.st.trace == st.trace + [Logged(Resolver.Interpolate(Field(a, "message").s, st.ctx))]
    ensures r.Threw? ==> r.st == st
  {
    match Field(a, "message")
    case Str(m) => Ok(Emit(st, Logged(Resolver.Interpolate(m, st.ctx))), Undef)
    case _ => Threw(st, NonStringFault(Field(a, "message"), "replace"))
  }

  /** `transform`: runs the transformation named by `transformation` on
      `context[inputKey]`, handing it the whole descriptor as its
      configuration, and returns its result. An unknown name is reported
      and gives `undefined`. */
  function TransformAction(env: Env, reg: Registry, a: Value, st: State): (r: Outcome)
    ensures r.st.ctx == st.ctx
    ensures st.trace <= r.st.trace
    ensures LookupTransformation(reg, PropertyKey(Field(a, "transformation"))).Missing? ==>
              r == Ok(Emit(st, Error(UnknownTransformation(Field(a, "transformation")))), Undef)
  {
    var name := Field(a, "transformation");
    var h := LookupTransformation(reg, PropertyKey(name));
    if h.Missing? then Ok(Emit(st, Error(UnknownTransformation(name))), Undef)
    else Invoke(env.parseJson, reg, h, Get(st.ctx, Field(a, "inputKey")), a, st)
  }

  /** The `transform` action as src/actions.js:72-79 is written: the
      module imports neither `builtInTransformations` nor `plugins`, so
      the first lookup throws a ReferenceError, whatever the descriptor. */
  function TransformActionAsWritten(a: Value, st: State): (r: Outcome)
    ensures r.Threw? && r.st == st
  {
    Threw(st, Unbound("builtInTransformations"))
  }

  // ---------------------------------------------------------------------
  // Properties

  /** Deleting a key just set leaves the context as it was, less that key;
      so setting a fresh key and deleting it again is a no-op. */
  lemma SetThenDelete(a: Value, st: State)
    ensures var s1 := SetContext(a, st).st;
            DeleteContext(a, s1).st.ctx == st.ctx - {PropertyKey(Field(a, "key"))}
    ensures PropertyKey(Field(a, "key")) !in st.ctx ==> DeleteContext(a, SetContext(a, st).st).st == st
  {
    var k := PropertyKey(Field(a, "key"));
    var s2 := DeleteContext(a, SetContext(a, st).st).st;
    assert s2.ctx == st.ctx - {k};
    if k !in st.ctx {
      assert st.ctx - {k} == st.ctx;
    }
  }

  /** Setting a key twice keeps the second value: the result depends only
      on the last write. */
  lemma SetContextLastWins(a: Value, b: Value, st: State)
    requires PropertyKey(Field(a, "key")) == PropertyKey(Field(b, "key"))
    ensures SetContext(b, SetContext(a, st).st) == SetContext(b, st)
  {
  }

  /** The `transform` action looks up built-ins before plugins: for every
      built-in name, a plugin registered under that name is never called,
      and the built-in runs on `context[inputKey]` with the descriptor as
      its configuration; `uppercase`, for one, upper-cases the input. */
  lemma TransformPrefersBuiltin(env: Env, reg: Registry, n: string, b: BuiltinTransformation,
                                p: TransformHandler, a: Value, st: State)
    requires BuiltinTransformationNamed(n) == Some(b)
    requires Field(a, "transformation") == Str(n)
    ensures var r := RegisterTransformation(reg, n, p);
            TransformAction(env, r, a, st)
            == Invoke(env.parseJson, r, BuiltIn(b), Get(st.ctx, Field(a, "inputKey")), a, st)
    ensures n == "uppercase" ==>
              TransformAction(env, RegisterTransformation(reg, n, p), a, st)
              == CaseMap(Get(st.ctx, Field(a, "inputKey")), true, st)
  {
  }

  /** The `transform` action calls a plugin transformation with
      `context[inputKey]`, the descriptor and the context. */
  lemma TransformCallsPlugin(env: Env, reg: Registry, name: string, p: TransformHandler, a: Value, st: State)
    requires BuiltinTransformationNamed(name).None?
    requires Field(a, "transformation") == Str(name)
    ensures TransformAction(env, RegisterTransformation(reg, name, p), a, st)
         == Ok(st, p(Get(st.ctx, Field(a, "inputKey")), a, st.ctx))
  {
  }

  /** A plain message is logged exactly as written. */
  lemma LogPlain(a: Value, st: State)
    requires Field(a, "message").Str? && Resolver.NoTokens(Field(a, "message").s)
    ensures Log(a, st) == Ok(Emit(st, Logged(Field(a, "message").s)), Undef)
  {
    Resolver.InterpolatePlain(Field(a, "message").s, st.ctx);
  }

  /** The missing imports in action: `uppercase` on `context.k` = "a"
      throws as written, while the intended action returns "A". */
  lemma TransformActionAsWrittenThrows(env: Env, reg: Registry, st: State)
    requires "k" in st.ctx && st.ctx["k"] == Str("a")
    ensures var a := Obj(map["type" := Str("transform"), "transformation" := Str("uppercase"),
                             "inputKey" := Str("k")]);
            && TransformActionAsWritten(a, st).Threw?
            && TransformAction(env, reg, a, st) == Ok(st, Str("A"))
  {
    var a := Obj(map["type" := Str("transform"), "transformation" := Str("uppercase"), "inputKey" := Str("k")]);
    assert Field(a, "transformation") == Str("uppercase");
    assert Field(a, "inputKey") == Str("k");
    assert LookupTransformation(reg, "uppercase") == BuiltIn(Uppercase);
    assert Text.ToUpper("a") == "A";
  }
}

=== FILE: conditions.dfy ===
/**
  `applyCondition(value, condition, expectedValue)`: the predicate behind
  the `condition` action.
 */
module Conditions {
  import opened Values
  import Text
  import opened Effects

  /** A condition either evaluates to a boolean or throws (`includes` on a
      value that has no such method). */
  datatype Verdict = Holds(met: bool) | Throws(fault: Fault)

  function Not(v: Verdict): Verdict
  {
    match v
    case Holds(b) => Holds(!b)
    case Throws(f) => Throws(f)
  }

  predicate IsPrimitive(v: Value)
  {
    !(v.Arr? || v.Obj? || v.CtxRef?)
  }

  /** `a === b`. Arrays and objects compare by identity; the comparand of
      a condition is always a fresh copy made by placeholder resolution,
      so an array or object comparand is never identical to anything. */
  predicate StrictEquals(a: Value, b: Value)
  {
    IsPrimitive(b) && a == b
  }

  /** How `<` and `>` relate two operands, as the abstract relational
      comparison of ECMA-262 does it: both operands are made primitive;
      two strings compare by characters, any other pair by `Number`, and
      NaN on either side leaves them unordered. ECMA-262 orders strings by
      UTF-16 code units; the two orders agree inside the basic plane. */
  datatype Order = Below | Same | Above | Unordered

  function Compare(a: Value, b: Value): Order
  {
    var pa := ToPrimitive(a);
    var pb := ToPrimitive(b);
    if pa.Str? && pb.Str? then CompareText(pa.s, pb.s)
    else CompareNumeric(ToNumber(pa), ToNumber(pb))
  }

  /** Two strings compare character by character. */
  function CompareText(s: string, t: string): Order
  {
    if Text.StrLess(s, t) then Below else if s == t then Same else Above
  }

  /** Two numbers compare as numbers; `NaN` on either side is unordered. */
  function CompareNumeric(x: Option<int>, y: Option<int>): Order
  {
    match (x, y)
    case (Some(m), Some(n)) => if m < n then Below else if m == n then Same else Above
    case _ => Unordered
  }

  function Flip(o: Order): Order
  {
    match o
    case Below => Above
    case Above => Below
    case _ => o
  }

  lemma CompareTextFlips(s: string, t: string)
    ensures CompareText(t, s) == Flip(CompareText(s, t))
  {
    Text.StrLessTrichotomy(s, t);
  }

  lemma CompareNumericFlips(x: Option<int>, y: Option<int>)
    ensures CompareNumeric(y, x) == Flip(CompareNumeric(x, y))
  {
  }

  /** Swapping the operands flips the order. */
  lemma CompareFlips(a: Value, b: Value)
    ensures Compare(b, a) == Flip(Compare(a, b))
  {
    var pa := ToPrimitive(a);
    var pb := ToPrimitive(b);
    if pa.Str? && pb.Str? {
      CompareTextFlips(pa.s, pb.s);
    } else {
      CompareNumericFlips(ToNumber(pa), ToNumber(pb));
    }
  }

  /** `value.includes(expected)`: substring search (after converting the
      argument to a string) on strings, element search on arrays. */
  function Includes(value: Value, expected: Value): Verdict
  {
    match value
    case Str(s) => Holds(Text.Contains(s, ToJsString(expected)))
    case Arr(a) => Holds(exists i | 0 <= i < |a| :: StrictEquals(a[i], expected))
    case Null => Throws(NullishAccess)
    case Undef => Throws(NullishAccess)
    case _ => Throws(NotAFunction("includes"))
  }

  /** The condition names `applyCondition` recognises; its `switch` matches
      only these exact strings. */
  predicate KnownCondition(condition: Value)
  {
    condition.Str? &&
    condition.s in {"equals", "strictEquals", "greaterThan", "greaterThanOrEqual",
                    "lessThan", "lessThanOrEqual", "contains", "doesNotContain",
                    "empty", "isNotEmpty"}
  }

  function ApplyCondition(value: Value, condition: Value, expected: Value): Verdict
  {
    if !condition.Str? then Holds(false)
    else
      var name := condition.s;
      if name == "equals" then Holds(StrictEquals(value, expected))
      else if name == "strictEquals" then Holds(StrictEquals(value, expected))
      else if name == "greaterThan" then Holds(Compare(value, expected) == Above)
      else if name == "greaterThanOrEqual" then Holds(Compare(value, expected) in {Above, Same})
      else if name == "lessThan" then Holds(Compare(value, expected) == Below)
      else if name == "lessThanOrEqual" then Holds(Compare(value, expected) in {Below, Same})
      else if name == "contains" then Includes(value, expected)
      else if name == "doesNotContain" then Not(Includes(value, expected))
      else if name == "empty" then Holds(value == Str(""))
      else if name == "isNotEmpty" then Holds(value != Str(""))
      else Holds(false)
  }

  // ---------------------------------------------------------------------
  // Properties

  /** `equals` and `strictEquals` are one predicate: identity on
      primitives. */
  lemma EqualsIsStrictEquals(value: Value, expected: Value)
    ensures ApplyCondition(value, Str("equals"), expected)
         == ApplyCondition(value, Str("strictEquals"), expected)
    ensures ApplyCondition(value, Str("equals"), expected)
         == Holds(IsPrimitive(expected) && value == expected)
  {
  }

  lemma GreaterThanReadsOrder(a: Value, b: Value)
    ensures ApplyCondition(a, Str("greaterThan"), b) == Holds(Compare(a, b) == Above)
  {
  }

  lemma GreaterThanOrEqualReadsOrder(a: Value, b: Value)
    ensures ApplyCondition(a, Str("greaterThanOrEqual"), b) == Holds(Compare(a, b) in {Above, Same})
  {
  }

  lemma LessThanReadsOrder(a: Value, b: Value)
    ensures ApplyCondition(a, Str("lessThan"), b) == Holds(Compare(a, b) == Below)
  {
  }

  lemma LessThanOrEqualReadsOrder(a: Value, b: Value)
    ensures ApplyCondition(a, Str("lessThanOrEqual"), b) == Holds(Compare(a, b) in {Below, Same})
  {
  }

  /** The four ordering conditions read the operands' order. */
  lemma OrderingNames(a: Value, b: Value)
    ensures ApplyCondition(a, Str("greaterThan"), b) == Holds(Compare(a, b) == Above)
    ensures ApplyCondition(a, Str("greaterThanOrEqual"), b) == Holds(Compare(a, b) in {Above, Same})
    ensures ApplyCondition(a, Str("lessThan"), b) == Holds(Compare(a, b) == Below)
    ensures ApplyCondition(a, Str("lessThanOrEqual"), b) == Holds(Compare(a, b) in {Below, Same})
  {
    GreaterThanReadsOrder(a, b);
    GreaterThanOrEqualReadsOrder(a, b);
    LessThanReadsOrder(a, b);
    LessThanOrEqualReadsOrder(a, b);
  }

  lemma CompareNumbers(x: int, y: int)
    ensures Compare(Num(x), Num(y)) == CompareNumeric(Some(x), Some(y))
  {
    assert ToPrimitive(Num(x)) == Num(x) && ToPrimitive(Num(y)) == Num(y);
    assert ToNumber(Num(x)) == Some(x) && ToNumber(Num(y)) == Some(y);
  }

  lemma CompareStrings(s: string, t: string)
    ensures Compare(Str(s), Str(t)) == CompareText(s, t)
  {
    assert ToPrimitive(Str(s)) == Str(s) && ToPrimitive(Str(t)) == Str(t);
  }

  lemma CompareTextWithNumber(s: string, y: int)
    ensures Compare(Str(s), Num(y)) == CompareNumeric(StringToNumber(s), Some(y))
  {
    assert ToPrimitive(Str(s)) == Str(s) && ToPrimitive(Num(y)) == Num(y);
    assert ToNumber(Str(s)) == StringToNumber(s) && ToNumber(Num(y)) == Some(y);
  }

  lemma CompareWithUndefined(a: Value, b: Value)
    requires a.Undef? || b.Undef?
    ensures Compare(a, b) == Unordered
  {
    assert ToNumber(Undef) == None;
    if a.Undef? {
      assert ToPrimitive(a) == Undef;
    } else {
      assert ToPrimitive(b) == Undef;
    }
  }

  /** The four orderings are mutually consistent on every pair of
      operands: `>` is `<` with the operands swapped, `>=` and `<=` are the
      negations of `<` and `>` when the operands are ordered, and all four
      are false when either side is NaN. */
  lemma OrderingDuality(a: Value, b: Value)
    ensures ApplyCondition(a, Str("greaterThan"), b) == ApplyCondition(b, Str("lessThan"), a)
    ensures Compare(a, b) != Unordered ==>
              ApplyCondition(a, Str("greaterThanOrEqual"), b) == Not(ApplyCondition(a, Str("lessThan"), b)) &&
              ApplyCondition(a, Str("lessThanOrEqual"), b) == Not(ApplyCondition(a, Str("greaterThan"), b))
    ensures Compare(a, b) == Unordered ==>
              ApplyCondition(a, Str("greaterThan"), b) == Holds(false) &&
              ApplyCondition(a, Str("greaterThanOrEqual"), b) == Holds(false) &&
              ApplyCondition(a, Str("lessThan"), b) == Holds(false) &&
              ApplyCondition(a, Str("lessThanOrEqual"), b) == Holds(false)
    ensures !(ApplyCondition(a, Str("lessThan"), b).met && ApplyCondition(a, Str("greaterThan"), b).met)
  {
    OrderingNames(a, b);
    OrderingNames(b, a);
    CompareFlips(a, b);
  }

  /** On integers the orderings are the integer ones and on strings `<`
      is character order; a numeric text against a number compares as a
      number, and `undefined` is never ordered. */
  lemma OrderingMeaning(a: Value, b: Value)
    ensures a.Num? && b.Num? ==>
              ApplyCondition(a, Str("greaterThan"), b) == Holds(a.n > b.n) &&
              ApplyCondition(a, Str("lessThanOrEqual"), b) == Holds(a.n <= b.n)
    ensures a.Str? && b.Str? ==> ApplyCondition(a, Str("lessThan"), b) == Holds(Text.StrLess(a.s, b.s))
    ensures a.Str? && b.Num? && StringToNumber(a.s).Some? ==>
              ApplyCondition(a, Str("greaterThan"), b) == Holds(StringToNumber(a.s).value > b.n)
    ensures a.Undef? || b.Undef? ==>
              ApplyCondition(a, Str("greaterThanOrEqual"), b) == Holds(false) &&
              ApplyCondition(a, Str("lessThanOrEqual"), b) == Holds(false)
  {
    OrderingNames(a, b);
    if a.Num? && b.Num? {
      CompareNumbers(a.n, b.n);
    }
    if a.Str? && b.Str? {
      CompareStrings(a.s, b.s);
    }
    if a.Str? && b.Num? && StringToNumber(a.s).Some? {
      CompareTextWithNumber(a.s, b.n);
    }
    if a.Undef? || b.Undef? {
      CompareWithUndefined(a, b);
    }
  }

  /** `contains` is substring containment on strings and membership on
      arrays; on anything else it throws. */
  lemma ContainsMeaning(value: Value, expected: Value)
    ensures value.Str? ==>
              ApplyCondition(value, Str("contains"), expected)
              == Holds(Text.Contains(value.s, ToJsString(expected)))
    ensures value.Arr? && IsPrimitive(expected) ==>
              ApplyCondition(value, Str("contains"), expected) == Holds(expected in value.items)
    ensures !value.Str? && !value.Arr? ==> ApplyCondition(value, Str("contains"), expected).Throws?
  {
    if value.Arr? && IsPrimitive(expected) {
      if expected in value.items {
        var i :| 0 <= i < |value.items| && value.items[i] == expected;
        assert StrictEquals(value.items[i], expected);
      }
    }
  }

  /** `doesNotContain` is always the exact negation of `contains`,
      throwing exactly when it throws. */
  lemma DoesNotContainNegates(value: Value, expected: Value)
    ensures ApplyCondition(value, Str("doesNotContain"), expected)
         == Not(ApplyCondition(value, Str("contains"), expected))
    ensures ApplyCondition(value, Str("doesNotContain"), expected).Holds? <==>
            ApplyCondition(value, Str("contains"), expected).Holds?
  {
  }

  /** `empty` holds of the empty string only (so `null` is not empty), and
      `isNotEmpty` is its negation. */
  lemma EmptyMeaning(value: Value, expected: Value)
    ensures ApplyCondition(value, Str("empty"), expected) == Holds(value == Str(""))
    ensures ApplyCondition(value, Str("isNotEmpty"), expected)
         == Not(ApplyCondition(value, Str("empty"), expected))
    ensures ApplyCondition(Null, Str("empty"), expected) == Holds(false)
  {
  }

  /** Every unrecognised condition name (including a non-string one)
      fails closed. */
  lemma UnknownConditionIsFalse(value: Value, condition: Value, expected: Value)
    requires !KnownCondition(condition)
    ensures ApplyCondition(value, condition, expected) == Holds(false)
  {
  }

  /** Three sample evaluations. */
  lemma ConditionExamples()
    ensures ApplyCondition(Num(5), Str("greaterThan"), Num(3)) == Holds(true)
    ensures ApplyCondition(Str(""), Str("empty"), Null) == Holds(true)
    ensures ApplyCondition(Str("a"), Str("doesNotContain"), Str("a")) == Holds(false)
  {
    assert Text.MatchesAt("a", "a", 0);
  }

  /** A number's printed form compares with another number as the number
      itself: `String(x) > y` is `x > y`. */
  lemma PrintedNumberComparesAsNumber(x: int, y: int)
    ensures ApplyCondition(Str(IntToDecimal(x)), Str("greaterThan"), Num(y)) == Holds(x > y)
    ensures ApplyCondition(Str(IntToDecimal(x)), Str("lessThan"), Num(y)) == Holds(x < y)
  {
    var a := Str(IntToDecimal(x));
    GreaterThanReadsOrder(a, Num(y));
    LessThanReadsOrder(a, Num(y));
    IntToDecimalRoundTrip(x);
    CompareTextWithNumber(IntToDecimal(x), y);
  }
}

=== FILE: effects.dfy ===
/**
  What running a pipeline can observe besides the context: the console
  lines it writes (diagnostics from `console.error`, messages from the
  `log` action) and the JavaScript errors that reject the run.
 */
module Effects {
  import opened Values

  /** The `console.error` reports of the pipeline. */
  datatype Diagnostic =
    | UnknownActionType(name: Value)       // processActions: no handler for the type
    | UnknownTransformation(name: Value)   // transform action / transform chain
    | UnknownCondition(name: Value)        // applyCondition's default branch
    | NoBranch                             // condition with no branch to dispatch
    | InvalidJson(text: string)            // jsonParse on malformed text

  datatype Event = Logged(message: string) | Error(diag: Diagnostic)

  /** The errors that escape the pipeline and reject its promise. */
  datatype Fault =
    | NotIterable(v: Value)      // `for ... of` over a non-iterable
    | NullishAccess              // property read or destructuring on null/undefined
    | NotAFunction(member: string) // a string method called on a non-string
    | Unbound(name: string)      // a ReferenceError: an identifier the module never binds

  /** The context and the console transcript so far. */
  datatype State = State(ctx: Context, trace: seq<Event>)

  /** How a handler (or a whole list) ends: normally with a return value,
      or by throwing, with the context as mutated up to that point. */
  datatype Outcome = Ok(st: State, ret: Value) | Threw(st: State, fault: Fault)

  function Emit(st: State, e: Event): State
  {
    st.(trace := st.trace + [e])
  }

  function Put(st: State, key: string, v: Value): State
  {
    st.(ctx := st.ctx[key := v])
  }
}

=== FILE: examples.dfy ===
/**
  Whole pipelines with concrete descriptors, worked through the model.
  The first section holds small steps stated for any descriptor; the
  worked pipelines chain them.
 */
module PipelineExamples {
  import opened Values
  import opened Effects
  import opened Plugin
  import Resolver
  import opened Transformations
  import opened Actions
  import opened Pipeline
  import PipelineProperties

  // ---------------------------------------------------------------------
  // Steps for any descriptor

  /** Resolving an object key by key: adding an entry adds its resolved
      value. */
  lemma ResolveObjAdd(m: map<string, Value>, k: string, v: Value, ctx: Context)
    ensures Resolver.Resolve(Obj(m[k := v]), ctx).fields
         == Resolver.Resolve(Obj(m), ctx).fields[k := Resolver.Resolve(v, ctx)]
  {
    var a := Resolver.Resolve(Obj(m[k := v]), ctx).fields;
    var b := Resolver.Resolve(Obj(m), ctx).fields[k := Resolver.Resolve(v, ctx)];
    assert a.Keys == b.Keys;
    forall x | x in a ensures a[x] == b[x] {
      if x != k {
        assert m[k := v][x] == m[x];
      }
    }
  }

  lemma ResolveEmpty(ctx: Context)
    ensures Resolver.Resolve(Obj(map[]), ctx) == Obj(map[])
  {
    assert Resolver.Resolve(Obj(map[]), ctx).fields.Keys == {};
  }

  lemma ResolveObj1(k1: string, v1: Value, ctx: Context)
    ensures Resolver.Resolve(Obj(map[k1 := v1]), ctx) == Obj(map[k1 := Resolver.Resolve(v1, ctx)])
  {
    ResolveEmpty(ctx);
    ResolveObjAdd(map[], k1, v1, ctx);
  }

  lemma ResolveObj2(k1: string, v1: Value, k2: string, v2: Value, ctx: Context)
    ensures Resolver.Resolve(Obj(map[k1 := v1, k2 := v2]), ctx)
         == Obj(map[k1 := Resolver.Resolve(v1, ctx), k2 := Resolver.Resolve(v2, ctx)])
  {
    ResolveObj1(k1, v1, ctx);
    ResolveObjAdd(map[k1 := v1], k2, v2, ctx);
  }

  lemma ResolveObj3(k1: string, v1: Value, k2: string, v2: Value, k3: string, v3: Value, ctx: Context)
    ensures Resolver.Resolve(Obj(map[k1 := v1, k2 := v2, k3 := v3]), ctx)
         == Obj(map[k1 := Resolver.Resolve(v1, ctx), k2 := Resolver.Resolve(v2, ctx), k3 := Resolver.Resolve(v3, ctx)])
  {
    ResolveObj2(k1, v1, k2, v2, ctx);
    ResolveObjAdd(map[k1 := v1, k2 := v2], k3, v3, ctx);
  }

  lemma ResolveObj4(k1: string, v1: Value, k2: string, v2: Value, k3: string, v3: Value,
                    k4: string, v4: Value, ctx: Context)
    ensures Resolver.Resolve(Obj(map[k1 := v1, k2 := v2, k3 := v3, k4 := v4]), ctx)
         == Obj(map[k1 := Resolver.Resolve(v1, ctx), k2 := Resolver.Resolve(v2, ctx),
                    k3 := Resolver.Resolve(v3, ctx), k4 := Resolver.Resolve(v4, ctx)])
  {
    ResolveObj3(k1, v1, k2, v2, k3, v3, ctx);
    ResolveObjAdd(map[k1 := v1, k2 := v2, k3 := v3], k4, v4, ctx);
  }

  /** An object whose first two fields resolve to themselves resolves
      its third field only. */
  lemma ResolveLastField(k1: string, v1: Value, k2: string, v2: Value, k3: string, v3: Value, ctx: Context)
    requires Resolver.Resolve(v1, ctx) == v1 && Resolver.Resolve(v2, ctx) == v2
    ensures Resolver.Resolve(Obj(map[k1 := v1, k2 := v2, k3 := v3]), ctx)
         == Obj(map[k1 := v1, k2 := v2, k3 := Resolver.Resolve(v3, ctx)])
  {
    ResolveObj3(k1, v1, k2, v2, k3, v3, ctx);
  }

  lemma ResolveArr1(v: Value, ctx: Context)
    ensures Resolver.Resolve(Arr([v]), ctx) == Arr([Resolver.Resolve(v, ctx)])
  {
  }

  /** A descriptor whose resolved `type` names built-in `b` and which has
      no `outputKey` is handed, resolved, to that built-in. */
  lemma StepBuiltin(env: Env, reg: Registry, a: Value, b: BuiltinAction, st: State)
    requires !IsNullish(a)
    requires LookupAction(reg, PropertyKey(Field(Resolver.Resolve(a, st.ctx), "type"))) == BuiltIn(b)
    requires !Truthy(Field(Resolver.Resolve(a, st.ctx), "outputKey"))
    ensures var ra := Resolver.Resolve(a, st.ctx);
            Step(env, reg, a, st) == Perform(env, reg, BuiltIn(b), ra, ScopeOf(ra, st.ctx), st)
  {
  }

  lemma PerformSetContext(env: Env, reg: Registry, ra: Value, sc: Scope, st: State)
    requires !IsNullish(ra)
    ensures Perform(env, reg, BuiltIn(SetContextAction), ra, sc, st) == SetContext(ra, st)
  {
  }

  lemma PerformLoop(env: Env, reg: Registry, ra: Value, sc: Scope, st: State)
    requires !IsNullish(ra)
    ensures Perform(env, reg, BuiltIn(LoopAction), ra, sc, st) == Loop(env, reg, ra, st)
  {
  }

  lemma PerformLog(env: Env, reg: Registry, ra: Value, sc: Scope, st: State)
    requires !IsNullish(ra)
    ensures Perform(env, reg, BuiltIn(LogAction), ra, sc, st) == Log(ra, st)
  {
  }

  lemma LookupSetContext(reg: Registry)
    ensures LookupAction(reg, "setContext") == BuiltIn(SetContextAction)
  {
  }

  lemma LookupLoop(reg: Registry)
    ensures LookupAction(reg, "loop") == BuiltIn(LoopAction)
  {
  }

  lemma LookupLog(reg: Registry)
    ensures LookupAction(reg, "log") == BuiltIn(LogAction)
  {
  }

  /** A descriptor whose resolved `type` is `setContext` and whose
      resolved `outputKey` is falsy is exactly a `setContext` call on the
      resolved descriptor. */
  lemma StepOfSetContext(env: Env, reg: Registry, a: Value, st: State)
    requires !IsNullish(a)
    requires var ra := Resolver.Resolve(a, st.ctx);
             Field(ra, "type") == Str("setContext") && !Truthy(Field(ra, "outputKey"))
    ensures Step(env, reg, a, st) == SetContext(Resolver.Resolve(a, st.ctx), st)
  {
    var ra := Resolver.Resolve(a, st.ctx);
    LookupSetContext(reg);
    StepBuiltin(env, reg, a, SetContextAction, st);
    PerformSetContext(env, reg, ra, ScopeOf(ra, st.ctx), st);
  }

  /** A loop whose input is an iterable walks exactly its elements. */
  lemma LoopEntry(env: Env, reg: Registry, ra: Value, xs: seq<Value>, st: State)
    requires !IsNullish(ra) && Iterate(LoopItems(ra, st.ctx)) == Some(xs)
    ensures Loop(env, reg, ra, st) == LoopIter(env, reg, PropertyKey(Field(ra, "itemKey")), Field(ra, "actions"), xs, st)
  {
  }

  /** A one-element list runs its descriptor and returns the context. */
  lemma RunOne(env: Env, reg: Registry, a: Value, st: State)
    ensures Run(env, reg, [a], st)
         == match Step(env, reg, a, st)
            case Ok(s, _) => Ok(s, CtxRef)
            case Threw(s, f) => Threw(s, f)
  {
    assert [a][1..] == [];
  }

  /** `processActions({actions: [...]}, context)` runs the list on the
      context with an empty console. */
  lemma ProcessRuns(env: Env, reg: Registry, acts: seq<Value>, ctx: Context)
    ensures Process(env, reg, Obj(map["actions" := Arr(acts)]), ctx) == Run(env, reg, acts, State(ctx, []))
  {
  }

  // ---------------------------------------------------------------------
  // setContext

  /** `{type: "setContext", key: k, value: v}` */
  function SetDescriptor(k: string, v: Value): Value
  {
    Obj(map["type" := Str("setContext"), "key" := Str(k), "value" := v])
  }

  /** Resolving a `setContext` descriptor with a plain key resolves its
      value only. */
  lemma ResolveSetDescriptor(k: string, v: Value, ctx: Context)
    requires Resolver.DollarFree(k)
    ensures Resolver.Resolve(SetDescriptor(k, v), ctx) == SetDescriptor(k, Resolver.Resolve(v, ctx))
  {
    ResolvePlainStr("setContext", ctx);
    ResolvePlainStr(k, ctx);
    ResolveLastField("type", Str("setContext"), "key", Str(k), "value", v, ctx);
  }

  lemma SetDescriptorFields(k: string, v: Value)
    ensures Field(SetDescriptor(k, v), "type") == Str("setContext")
    ensures Field(SetDescriptor(k, v), "outputKey") == Undef
    ensures Field(SetDescriptor(k, v), "key") == Str(k)
    ensures Field(SetDescriptor(k, v), "value") == v
  {
  }

  /** A `setContext` descriptor without placeholders writes its value and
      nothing else. */
  lemma SetDescriptorStep(env: Env, reg: Registry, k: string, v: Value, st: State)
    requires Resolver.DollarFree(k)
    requires v.Num? || v == Str("")
    ensures Step(env, reg, SetDescriptor(k, v), st) == Ok(Put(st, k, v), Undef)
  {
    assert Resolver.Resolve(SetDescriptor(k, v), st.ctx) == SetDescriptor(k, v) by {
      ResolveSetDescriptor(k, v, st.ctx);
      assert Resolver.Interpolate("", st.ctx) == "";
      assert Resolver.Resolve(v, st.ctx) == v;
    }
    SetDescriptorFields(k, v);
    StepOfSetContext(env, reg, SetDescriptor(k, v), st);
  }

  /** Two numeric writes to one key, in a row. */
  lemma TwoWrites(env: Env, reg: Registry, k: string, x: int, y: int, st: State)
    requires Resolver.DollarFree(k)
    ensures Run(env, reg, [SetDescriptor(k, Num(x)), SetDescriptor(k, Num(y))], st)
         == Ok(Put(Put(st, k, Num(x)), k, Num(y)), CtxRef)
  {
    var a1 := SetDescriptor(k, Num(x));
    var a2 := SetDescriptor(k, Num(y));
    assert [a1, a2] == [a1] + [a2];
    PipelineProperties.RunAppend(env, reg, [a1], [a2], st);
    SetDescriptorStep(env, reg, k, Num(x), st);
    RunOne(env, reg, a1, st);
    var s1 := Put(st, k, Num(x));
    SetDescriptorStep(env, reg, k, Num(y), s1);
    RunOne(env, reg, a2, s1);
  }

  /** Two writes to one key: the later one wins, whatever the context
      held before. */
  lemma LaterWriteWins(env: Env, reg: Registry, k: string, x: int, y: int, ctx: Context)
    requires Resolver.DollarFree(k)
    ensures var config := Obj(map["actions" := Arr([SetDescriptor(k, Num(x)), SetDescriptor(k, Num(y))])]);
            Process(env, reg, config, ctx) == Ok(State(ctx[k := Num(y)], []), CtxRef)
  {
    var acts := [SetDescriptor(k, Num(x)), SetDescriptor(k, Num(y))];
    ProcessRuns(env, reg, acts, ctx);
    TwoWrites(env, reg, k, x, y, State(ctx, []));
    assert ctx[k := Num(x)][k := Num(y)] == ctx[k := Num(y)];
  }

  // ---------------------------------------------------------------------
  // loop

  /** The body of the loop example as written:
      `{type: "setContext", key: "last", value: "${it}"}`. */
  function LastOfBody(): Value
  {
    SetDescriptor("last", Str("${it}"))
  }

  /** `{type: "loop", inputKey: ik, itemKey: itk, actions: [body]}` */
  function LoopOf(ik: string, itk: string, body: Value): Value
  {
    Obj(map["type" := Str("loop"), "inputKey" := Str(ik), "itemKey" := Str(itk), "actions" := Arr([body])])
  }

  /** The loop example: `LoopOf("items", "it", LastOfBody())`. */
  function LoopDescriptor(): Value
  {
    LoopOf("items", "it", LastOfBody())
  }

  /** The loop descriptor as the dispatcher sees it when `it` is unset. */
  function ResolvedLoopDescriptor(): Value
  {
    LoopOf("items", "it", SetDescriptor("last", Str("")))
  }

  /** Resolving a loop descriptor with plain keys resolves its body. */
  lemma ResolveLoopOf(ik: string, itk: string, body: Value, ctx: Context)
    requires Resolver.DollarFree(ik) && Resolver.DollarFree(itk)
    ensures Resolver.Resolve(LoopOf(ik, itk, body), ctx) == LoopOf(ik, itk, Resolver.Resolve(body, ctx))
  {
    ResolveArr1(body, ctx);
    ResolveObj4("type", Str("loop"), "inputKey", Str(ik), "itemKey", Str(itk), "actions", Arr([body]), ctx);
    ResolvePlainStr("loop", ctx);
    ResolvePlainStr(ik, ctx);
    ResolvePlainStr(itk, ctx);
  }

  lemma InterpolateUnsetItem(ctx: Context)
    requires "it" !in ctx
    ensures Resolver.Interpolate("${it}", ctx) == ""
  {
    assert "${it}" == "${" + "it" + "}" + "";
    assert Resolver.IsWord("it");
    Resolver.InterpolateToken("it", "", ctx);
    assert Resolver.Interpolate("", ctx) == "";
  }

  lemma ResolveLastOfBody(ctx: Context)
    requires "it" !in ctx
    ensures Resolver.Resolve(LastOfBody(), ctx) == SetDescriptor("last", Str(""))
  {
    InterpolateUnsetItem(ctx);
    ResolveSetDescriptor("last", Str("${it}"), ctx);
  }

  /** Resolving the loop descriptor before any item is stored turns the
      body's `${it}` into "". */
  lemma LoopBodyResolvedEarly(ctx: Context)
    requires "it" !in ctx
    ensures Resolver.Resolve(LoopDescriptor(), ctx) == ResolvedLoopDescriptor()
  {
    ResolveLastOfBody(ctx);
    ResolveLoopOf("items", "it", LastOfBody(), ctx);
  }

  /** One iteration of the resolved body: store the item, write "" to
      `last`. */
  lemma LastBodyIteration(env: Env, reg: Registry, item: Value, st: State)
    ensures Run(env, reg, [SetDescriptor("last", Str(""))], Put(st, "it", item))
         == Ok(Put(Put(st, "it", item), "last", Str("")), CtxRef)
  {
    var s1 := Put(st, "it", item);
    SetDescriptorStep(env, reg, "last", Str(""), s1);
    RunOne(env, reg, SetDescriptor("last", Str("")), s1);
  }

  /** Writing the same two keys again erases the first two writes. */
  lemma RewriteBoth(st: State, k1: string, x: Value, y: Value, k2: string, v: Value)
    ensures Put(Put(Put(Put(st, k1, x), k2, v), k1, y), k2, v) == Put(Put(st, k1, y), k2, v)
  {
    assert st.ctx[k1 := x][k2 := v][k1 := y][k2 := v] == st.ctx[k1 := y][k2 := v];
  }

  /** Over any non-empty list of items the resolved loop ends with the
      last item under `it` and "" under `last`. */
  lemma {:induction false} ResolvedLoopRuns(env: Env, reg: Registry, items: seq<Value>, st: State)
    requires |items| > 0
    ensures LoopIter(env, reg, "it", Arr([SetDescriptor("last", Str(""))]), items, st)
         == Ok(Put(Put(st, "it", items[|items| - 1]), "last", Str("")), Undef)
    decreases |items|
  {
    LastBodyIteration(env, reg, items[0], st);
    var s2 := Put(Put(st, "it", items[0]), "last", Str(""));
    if |items| > 1 {
      ResolvedLoopRuns(env, reg, items[1..], s2);
      RewriteBoth(st, "it", items[0], items[|items| - 1], "last", Str(""));
    }
  }

  /** A `loop` descriptor without `outputKey` is exactly a `loop` call on
      its resolved form. */
  lemma StepOfLoop(env: Env, reg: Registry, a: Value, st: State)
    requires !IsNullish(a)
    requires Field(Resolver.Resolve(a, st.ctx), "type") == Str("loop")
    requires !Truthy(Field(Resolver.Resolve(a, st.ctx), "outputKey"))
    ensures Step(env, reg, a, st) == Loop(env, reg, Resolver.Resolve(a, st.ctx), st)
  {
    var ra := Resolver.Resolve(a, st.ctx);
    LookupLoop(reg);
    StepBuiltin(env, reg, a, LoopAction, st);
    PerformLoop(env, reg, ra, ScopeOf(ra, st.ctx), st);
  }

  lemma ResolvedLoopFields()
    ensures Field(ResolvedLoopDescriptor(), "type") == Str("loop")
    ensures Field(ResolvedLoopDescriptor(), "outputKey") == Undef
    ensures Field(ResolvedLoopDescriptor(), "inputKey") == Str("items")
    ensures Field(ResolvedLoopDescriptor(), "itemKey") == Str("it")
    ensures Field(ResolvedLoopDescriptor(), "actions") == Arr([SetDescriptor("last", Str(""))])
  {
  }

  /** The loop descriptor, dispatched while `it` is unset, runs the
      resolved loop. */
  lemma LoopDescriptorStep(env: Env, reg: Registry, st: State)
    requires "it" !in st.ctx
    ensures Step(env, reg, LoopDescriptor(), st) == Loop(env, reg, ResolvedLoopDescriptor(), st)
  {
    var ra := Resolver.Resolve(LoopDescriptor(), st.ctx);
    assert ra == ResolvedLoopDescriptor() by {
      LoopBodyResolvedEarly(st.ctx);
    }
    assert Step(env, reg, LoopDescriptor(), st) == Loop(env, reg, ra, st) by {
      assert Field(ra, "type") == Str("loop") && Field(ra, "outputKey") == Undef by {
        ResolvedLoopFields();
      }
      StepOfLoop(env, reg, LoopDescriptor(), st);
    }
  }

  /** The resolved loop walks `context.items`. */
  lemma ResolvedLoopEntry(env: Env, reg: Registry, xs: seq<Value>, st: State)
    requires "items" in st.ctx && st.ctx["items"] == Arr(xs)
    ensures Loop(env, reg, ResolvedLoopDescriptor(), st)
         == LoopIter(env, reg, "it", Arr([SetDescriptor("last", Str(""))]), xs, st)
  {
    var ra := ResolvedLoopDescriptor();
    ResolvedLoopFields();
    assert LoopItems(ra, st.ctx) == Arr(xs);
    LoopEntry(env, reg, ra, xs, st);
  }

  /** The loop example: over ["x", "y", "z"] the context ends with
      `it` = "z" but `last` = "", because the body's `${it}` was filled in
      when the loop descriptor itself was resolved, before `it` existed. */
  lemma LoopExample(env: Env, reg: Registry, ctx: Context)
    requires "items" in ctx && ctx["items"] == Arr([Str("x"), Str("y"), Str("z")]) && "it" !in ctx
    ensures Process(env, reg, Obj(map["actions" := Arr([LoopDescriptor()])]), ctx)
         == Ok(State(ctx["it" := Str("z")]["last" := Str("")], []), CtxRef)
  {
    var st := State(ctx, []);
    var xs := [Str("x"), Str("y"), Str("z")];
    ProcessRuns(env, reg, [LoopDescriptor()], ctx);
    RunOne(env, reg, LoopDescriptor(), st);
    LoopDescriptorStep(env, reg, st);
    ResolvedLoopEntry(env, reg, xs, st);
    ResolvedLoopRuns(env, reg, xs, st);
  }

  // ---------------------------------------------------------------------
  // Unknown types

  lemma LookupDoesNotExist(reg: Registry)
    requires "doesNotExist" !in reg.actions
    ensures LookupAction(reg, "doesNotExist").Missing?
  {
  }

  /** A lone `$`-free string resolves to itself. */
  lemma ResolvePlainStr(t: string, ctx: Context)
    requires Resolver.DollarFree(t)
    ensures Resolver.Resolve(Str(t), ctx) == Str(t)
  {
    Resolver.InterpolateDollarFree(t, ctx);
  }

  lemma TypeOnlyResolves(k: string, t: string, ctx: Context)
    requires Resolver.DollarFree(t)
    ensures Resolver.Resolve(Obj(map[k := Str(t)]), ctx) == Obj(map[k := Str(t)])
  {
    ResolveObj1(k, Str(t), ctx);
    ResolvePlainStr(t, ctx);
  }

  lemma DoesNotExistDescriptor(ctx: Context)
    ensures var a := Obj(map["type" := Str("doesNotExist")]);
            && Resolver.Resolve(a, ctx) == a
            && Field(a, "type") == Str("doesNotExist")
            && Field(a, "transformation") == Undef
  {
    assert Resolver.DollarFree("doesNotExist");
    TypeOnlyResolves("type", "doesNotExist", ctx);
  }

  /** A placeholder-free descriptor of unknown type `t` and no
      `transformation` is reported by its type and skipped. */
  lemma UnknownTypeStepOf(env: Env, reg: Registry, a: Value, t: string, st: State)
    requires !IsNullish(a) && Resolver.Resolve(a, st.ctx) == a
    requires Field(a, "type") == Str(t) && Field(a, "transformation") == Undef
    requires LookupAction(reg, t).Missing?
    ensures Step(env, reg, a, st) == Ok(Emit(st, Error(UnknownActionType(Str(t)))), Undef)
  {
    PipelineProperties.UnknownTypeSkipped(env, reg, a, st);
  }

  /** `{type: "doesNotExist"}` is reported by its type and skipped. */
  lemma UnknownTypeStep(env: Env, reg: Registry, st: State)
    requires "doesNotExist" !in reg.actions
    ensures Step(env, reg, Obj(map["type" := Str("doesNotExist")]), st)
         == Ok(Emit(st, Error(UnknownActionType(Str("doesNotExist")))), Undef)
  {
    DoesNotExistDescriptor(st.ctx);
    LookupDoesNotExist(reg);
    UnknownTypeStepOf(env, reg, Obj(map["type" := Str("doesNotExist")]), "doesNotExist", st);
  }

  /** `processActions({actions: [{type: "doesNotExist"}]}, context)`
      completes with the context unchanged and exactly one report. */
  lemma UnknownTypeExample(env: Env, reg: Registry, ctx: Context)
    requires "doesNotExist" !in reg.actions
    ensures Process(env, reg, Obj(map["actions" := Arr([Obj(map["type" := Str("doesNotExist")])])]), ctx)
         == Ok(State(ctx, [Error(UnknownActionType(Str("doesNotExist")))]), CtxRef)
  {
    var a := Obj(map["type" := Str("doesNotExist")]);
    var st := State(ctx, []);
    ProcessRuns(env, reg, [a], ctx);
    RunOne(env, reg, a, st);
    UnknownTypeStep(env, reg, st);
  }

  // ---------------------------------------------------------------------
  // log

  /** A lone placeholder becomes the context's text for it. */
  lemma InterpolateSingle(k: string, ctx: Context)
    requires Resolver.IsWord(k)
    ensures Resolver.Interpolate("${" + k + "}", ctx) == Resolver.Lookup(ctx, k)
  {
    Resolver.InterpolateToken(k, "", ctx);
    assert "${" + k + "}" + "" == "${" + k + "}";
    assert Resolver.Interpolate("", ctx) == "";
    assert Resolver.Lookup(ctx, k) + "" == Resolver.Lookup(ctx, k);
  }

  /** `{type: "log", message: m}` */
  function LogDescriptor(m: string): Value
  {
    Obj(map["type" := Str("log"), "message" := Str(m)])
  }

  lemma ResolveLogDescriptor(m: string, ctx: Context)
    ensures Resolver.Resolve(LogDescriptor(m), ctx) == LogDescriptor(Resolver.Interpolate(m, ctx))
  {
    ResolveObj2("type", Str("log"), "message", Str(m), ctx);
    Resolver.InterpolateDollarFree("log", ctx);
  }

  /** A `log` descriptor logs its message after two passes of
      interpolation: one when the descriptor is resolved, one inside
      `log`. */
  lemma LogStep(env: Env, reg: Registry, m: string, st: State)
    ensures Step(env, reg, LogDescriptor(m), st)
         == Ok(Emit(st, Logged(Resolver.Interpolate(Resolver.Interpolate(m, st.ctx), st.ctx))), Undef)
  {
    var ra := LogDescriptor(Resolver.Interpolate(m, st.ctx));
    ResolveLogDescriptor(m, st.ctx);
    LookupLog(reg);
    assert Field(ra, "type") == Str("log");
    assert Field(ra, "outputKey") == Undef;
    StepBuiltin(env, reg, LogDescriptor(m), LogAction, st);
    PerformLog(env, reg, ra, ScopeOf(ra, st.ctx), st);
    assert Field(ra, "message") == Str(Resolver.Interpolate(m, st.ctx));
  }

  /** A placeholder naming a string entry becomes that string. */
  lemma InterpolateStringEntry(k: string, ctx: Context)
    requires Resolver.IsWord(k) && k in ctx && ctx[k].Str?
    ensures Resolver.Interpolate("${" + k + "}", ctx) == ctx[k].s
  {
    InterpolateSingle(k, ctx);
  }

  /** With `x` = "${y}" and `y` = "v", one pass over "${x}" gives
      "${y}" and one over "${y}" gives "v". */
  lemma ChainedEntries(ctx: Context)
    requires "x" in ctx && ctx["x"] == Str("${y}")
    requires "y" in ctx && ctx["y"] == Str("v")
    ensures Resolver.Interpolate("${x}", ctx) == "${y}"
    ensures Resolver.Interpolate("${y}", ctx) == "v"
  {
    assert Resolver.Interpolate("${x}", ctx) == "${y}" by {
      assert Resolver.IsWord("x");
      assert "${x}" == "${" + "x" + "}";
      InterpolateStringEntry("x", ctx);
    }
    assert Resolver.IsWord("y");
    assert "${y}" == "${" + "y" + "}";
    InterpolateStringEntry("y", ctx);
  }

  /** Braces around a word hold no `$`. */
  lemma BracedWordDollarFree(y: string)
    requires Resolver.IsWord(y)
    ensures Resolver.DollarFree("{" + y + "}")
  {
    var tail := "{" + y + "}";
    forall i | 0 <= i < |tail| ensures tail[i] != '$' {
      if 0 < i < |tail| - 1 {
        assert tail[i] == y[i - 1];
        assert Resolver.IsWordChar(y[i - 1]);
      }
    }
  }

  /** With `k` unset, `${k}` followed by `$`-free text leaves that text. */
  lemma UnsetTokenThen(k: string, tail: string, ctx: Context)
    requires Resolver.IsWord(k) && k !in ctx && Resolver.DollarFree(tail)
    ensures Resolver.Interpolate("${" + k + "}" + tail, ctx) == tail
  {
    Resolver.InterpolateToken(k, tail, ctx);
    Resolver.InterpolateDollarFree(tail, ctx);
    assert "" + tail == tail;
  }

  lemma DollarThenBraced(y: string)
    ensures "$" + ("{" + y + "}") == "${" + y + "}"
  {
    var a := "$" + ("{" + y + "}");
    var b := "${" + y + "}";
    assert |a| == |b|;
    forall i | 0 <= i < |a| ensures a[i] == b[i] {
      if 2 <= i < |a| - 1 {
        assert a[i] == y[i - 2] == b[i];
      }
    }
  }

  /** A placeholder can also be formed by the first pass out of
      configuration text: with `k` unset, "$${k}{y}" becomes "${y}". */
  lemma FormedPlaceholder(k: string, y: string, ctx: Context)
    requires Resolver.IsWord(k) && Resolver.IsWord(y) && k !in ctx
    ensures Resolver.Interpolate("$" + ("${" + k + "}") + ("{" + y + "}"), ctx) == "${" + y + "}"
  {
    var tail := "{" + y + "}";
    var t := "${" + k + "}" + tail;
    BracedWordDollarFree(y);
    UnsetTokenThen(k, tail, ctx);
    assert t[0] == '$';
    Resolver.InterpolateStrayDollar(t, ctx);
    assert "$" + ("${" + k + "}") + tail == "$" + t;
    DollarThenBraced(y);
  }

  /** The second pass acts on every `${word}` in the first pass's output,
      including one the first pass formed from configuration text: with `k`
      unset, logging "$${k}{y}" writes `context.y`. */
  lemma LogFormedPlaceholder(env: Env, reg: Registry, k: string, y: string, st: State)
    requires Resolver.IsWord(k) && Resolver.IsWord(y) && k !in st.ctx
    requires y in st.ctx && st.ctx[y].Str?
    ensures Step(env, reg, LogDescriptor("$" + ("${" + k + "}") + ("{" + y + "}")), st)
         == Ok(Emit(st, Logged(st.ctx[y].s)), Undef)
  {
    var m := "$" + ("${" + k + "}") + ("{" + y + "}");
    LogStep(env, reg, m, st);
    FormedPlaceholder(k, y, st.ctx);
    InterpolateStringEntry(y, st.ctx);
  }

  /** Because of the second pass, a context value that itself contains a
      placeholder is expanded too: with `x` = "${y}" and `y` = "v",
      logging "${x}" writes "v". */
  lemma LogSecondPass(env: Env, reg: Registry, st: State)
    requires "x" in st.ctx && st.ctx["x"] == Str("${y}")
    requires "y" in st.ctx && st.ctx["y"] == Str("v")
    ensures Step(env, reg, LogDescriptor("${x}"), st) == Ok(Emit(st, Logged("v")), Undef)
  {
    LogStep(env, reg, "${x}", st);
    ChainedEntries(st.ctx);
  }

  // ---------------------------------------------------------------------
  // transform chain

  /** `{type: "transform", transformation: "transform", inputKey: "v",
      params: {transformation: name}}` */
  function ChainDescriptor(name: string): Value
  {
    Obj(map["type" := Str("transform"), "transformation" := Str("transform"), "inputKey" := Str("v"),
            "params" := Obj(map["transformation" := Str(name)])])
  }

  lemma LookupChain(reg: Registry)
    ensures LookupTransformation(reg, "transform") == BuiltIn(Chain)
  {
  }

  /** The chain step on `{transformation: name}` for a plugin `name`
      calls the plugin with no configuration. */
  lemma ChainToPlugin(parse: JsonParser, reg: Registry, name: string, p: TransformHandler, value: Value, st: State)
    requires BuiltinTransformationNamed(name).None?
    ensures ChainStep(parse, RegisterTransformation(reg, name, p), value, Obj(map["transformation" := Str(name)]), st)
         == Ok(st, p(value, Undef, st.ctx))
  {
    var params := Obj(map["transformation" := Str(name)]);
    assert Field(params, "transformation") == Str(name);
    assert Field(params, "params") == Undef;
  }

  /** The chain example: the descriptor names the chain itself, so the
      chain first re-reads the descriptor's own `transformation` (the chain
      again), descends into `params`, and there reaches the plugin, which
      gets `context.v` and no configuration. */
  lemma ChainExample(env: Env, reg: Registry, name: string, p: TransformHandler, st: State)
    requires BuiltinTransformationNamed(name).None?
    ensures Actions.TransformAction(env, RegisterTransformation(reg, name, p), ChainDescriptor(name), st)
         == Ok(st, p(Get(st.ctx, Str("v")), Undef, st.ctx))
  {
    var r := RegisterTransformation(reg, name, p);
    var a := ChainDescriptor(name);
    var value := Get(st.ctx, Str("v"));
    var params := Obj(map["transformation" := Str(name)]);
    LookupChain(r);
    assert Field(a, "transformation") == Str("transform");
    assert Field(a, "inputKey") == Str("v");
    assert Field(a, "params") == params;
    assert Actions.TransformAction(env, r, a, st) == Invoke(env.parseJson, r, BuiltIn(Chain), value, a, st);
    assert ChainStep(env.parseJson, r, value, a, st) == Invoke(env.parseJson, r, BuiltIn(Chain), value, params, st);
    ChainToPlugin(env.parseJson, reg, name, p, value, st);
  }
}

=== FILE: pipeline.dfy ===
/**
  The dispatcher (`processActions` in src/processActions.js) together with
  the two built-in actions that dispatch nested action lists, `loop` and
  `condition` (src/actions.js). They call one another, so they share a
  module.

  Each descriptor is resolved against the context as it stands when the
  descriptor's turn comes, the handler is looked up by the resolved
  `type` (built-ins first), run, and its return value stored under
  `outputKey` when that is truthy. Nested lists are part of their
  enclosing descriptor, so their placeholders are resolved early, when the
  enclosing descriptor is; they are resolved again, one by one, when they
  run.
 */
module Pipeline {
  import opened Values
  import opened Effects
  import opened Plugin
  import Resolver
  import Conditions
  import opened Actions

  datatype BuiltinAction =
    | LoopAction | ConditionAction | QueryAction | QueryAllAction | FetchAction
    | SetContextAction | DeleteContextAction | LogAction | TransformValueAction

  function BuiltinActionNamed(name: string): Option<BuiltinAction>
  {
    if name == "loop" then Some(LoopAction)
    else if name == "condition" then Some(ConditionAction)
    else if name == "query" then Some(QueryAction)
    else if name == "queryAll" then Some(QueryAllAction)
    else if name == "fetch" then Some(FetchAction)
    else if name == "setContext" then Some(SetContextAction)
    else if name == "deleteContext" then Some(DeleteContextAction)
    else if name == "log" then Some(LogAction)
    else if name == "transform" then Some(TransformValueAction)
    else None
  }

  /** `builtInActions[type] || plugins.actions[type]` */
  function LookupAction(reg: Registry, name: string): Handler<BuiltinAction, ActionHandler>
  {
    Lookup(BuiltinActionNamed, reg.actions, name)
  }

  /** The element selector-based actions search in: the context entry
      `contextKey` names when both the name and the entry are truthy, the
      document otherwise. */
  function ScopeOf(ra: Value, ctx: Context): (r: Scope)
    ensures r.Element? ==> Truthy(r.node) && r.node == Get(ctx, Field(ra, "contextKey"))
    ensures r.Document? <==> !Truthy(Field(ra, "contextKey")) || !Truthy(Get(ctx, Field(ra, "contextKey")))
  {
    var ck := Field(ra, "contextKey");
    if Truthy(ck) && Truthy(Get(ctx, ck)) then Element(Get(ctx, ck)) else Document
  }

  /** `context[outputKey] = result` when `outputKey` is truthy, whatever
      the result is (`undefined` included); a throw propagates as is. */
  function StoreOutput(ra: Value, o: Outcome): (r: Outcome)
    ensures r.Ok? <==> o.Ok?
    ensures r.Threw? ==> r == o
    ensures r.Ok? ==> r.ret == o.ret && r.st.trace == o.st.trace
    ensures r.Ok? && Truthy(Field(ra, "outputKey")) ==>
              PropertyKey(Field(ra, "outputKey")) in r.st.ctx && r.st.ctx[PropertyKey(Field(ra, "outputKey"))] == o.ret
    ensures r.Ok? ==> forall n :: n != PropertyKey(Field(ra, "outputKey")) ==>
              (n in r.st.ctx <==> n in o.st.ctx) && (n in o.st.ctx ==> r.st.ctx[n] == o.st.ctx[n])
    ensures !Truthy(Field(ra, "outputKey")) ==> r == o
  {
    match o
    case Ok(s, v) =>
      var out := Field(ra, "outputKey");
      if Truthy(out) then Ok(Put(s, PropertyKey(out), v), v) else o
    case Threw(_, _) => o
  }

  /** `processActions({ actions }, context)` on the list `acts`: the
      descriptors run in order, each seeing the context the previous ones
      left; the first throw ends the run. A run that completes returns the
      context object itself. */
  function Run(env: Env, reg: Registry, acts: seq<Value>, st: State): (r: Outcome)
    ensures r.Ok? ==> r.ret == CtxRef
    ensures st.trace <= r.st.trace
    decreases SeqHeight(acts), 3, |acts|
  {
    if acts == [] then Ok(st, CtxRef)
    else
      ElementHeight(acts, 0);
      TailHeight(acts);
      match Step(env, reg, acts[0], st)
      case Threw(s, f) => Threw(s, f)
      case Ok(s, _) => Run(env, reg, acts[1..], s)
  }

  /** One turn of the dispatcher's loop: resolve, pick the handler, run
      it, store its result. An unknown type is reported (by the
      descriptor's raw `transformation` or else `type`) and skipped. */
  function Step(env: Env, reg: Registry, a: Value, st: State): (r: Outcome)
    ensures st.trace <= r.st.trace
    decreases Height(a), 2, 0
  {
    var ra := Resolver.Resolve(a, st.ctx);
    Resolver.ResolveHeight(a, st.ctx);
    if IsNullish(ra) then Threw(st, NullishAccess)
    else
      var h := LookupAction(reg, PropertyKey(Field(ra, "type")));
      if h.Missing? then
        Ok(Emit(st, Error(UnknownActionType(Or(Field(a, "transformation"), Field(a, "type"))))), Undef)
      else
        StoreOutput(ra, Perform(env, reg, h, ra, ScopeOf(ra, st.ctx), st))
  }

  /** Calls the handler found for a resolved descriptor. A plugin action
      returns its result and the context it leaves behind. */
  function Perform(env: Env, reg: Registry, h: Handler<BuiltinAction, ActionHandler>,
                   ra: Value, scope: Scope, st: State): (r: Outcome)
    requires !h.Missing? && !IsNullish(ra)
    ensures st.trace <= r.st.trace
    decreases Height(ra), 1, 0
  {
    match h
    case FromPlugin(p) =>
      var reply := p(ra, scope, st.ctx);
      Ok(State(reply.ctx, st.trace), reply.ret)
    case BuiltIn(b) =>
      match b
      case LoopAction => Loop(env, reg, ra, st)
      case ConditionAction => Condition(env, reg, ra, st)
      case QueryAction => Query(env, ra, scope, st)
      case QueryAllAction => QueryAll(env, ra, scope, st)
      case FetchAction => Fetch(env, ra, st)
      case SetContextAction => SetContext(ra, st)
      case DeleteContextAction => DeleteContext(ra, st)
      case LogAction => Log(ra, st)
      case TransformValueAction => TransformAction(env, reg, ra, st)
  }

  /** The list of items `loop` walks: `context[inputKey] || []`. */
  function LoopItems(ra: Value, ctx: Context): Value
  {
    Or(Get(ctx, Field(ra, "inputKey")), Arr([]))
  }

  /** `loop`: for each item of `context[inputKey] || []`, store it under
      `itemKey` and run the (already resolved) body `actions`. Returns
      `undefined`. */
  function Loop(env: Env, reg: Registry, ra: Value, st: State): (r: Outcome)
    requires !IsNullish(ra)
    ensures st.trace <= r.st.trace
    ensures r.Ok? ==> r.ret.Undef?
    decreases Height(ra), 0, 0
  {
    var items := LoopItems(ra, st.ctx);
    match Iterate(items)
    case None => Threw(st, NotIterable(items))
    case Some(xs) =>
      FieldHeight(ra, "actions");
      LoopIter(env, reg, PropertyKey(Field(ra, "itemKey")), Field(ra, "actions"), xs, st)
  }

  /** The remaining iterations of a loop over `items`. */
  function LoopIter(env: Env, reg: Registry, itemKey: string, body: Value, items: seq<Value>, st: State): (r: Outcome)
    ensures st.trace <= r.st.trace
    ensures r.Ok? ==> r.ret.Undef?
    decreases Height(body), 4, |items|
  {
    if items == [] then Ok(st, Undef)
    else
      var s1 := Put(st, itemKey, items[0]);
      match Iterate(body)
      case None => Threw(s1, NotIterable(body))
      case Some(acts) =>
        IterateHeight(body);
        match Run(env, reg, acts, s1)
        case Threw(s2, f) => Threw(s2, f)
        case Ok(s2, _) => LoopIter(env, reg, itemKey, body, items[1..], s2)
  }

  /** The list `condition` dispatches when the condition evaluates to
      `met`. */
  function Branch(ra: Value, met: bool): Value
  {
    Field(ra, if met then "actions" else "elseActions")
  }

  /** `condition`: evaluates `applyCondition(context[inputKey], condition,
      value)` (reporting an unrecognised condition name) and runs
      `actions` or `elseActions` accordingly, returning the context; when
      the chosen list is missing it reports that and returns `undefined`. */
  function Condition(env: Env, reg: Registry, ra: Value, st: State): (r: Outcome)
    requires !IsNullish(ra)
    ensures st.trace <= r.st.trace
    ensures r.Ok? ==> r.ret.Undef? || r.ret == CtxRef
    decreases Height(ra), 0, 0
  {
    var cond := Field(ra, "condition");
    var st1 := if Conditions.KnownCondition(cond) then st else Emit(st, Error(UnknownCondition(cond)));
    match Conditions.ApplyCondition(Get(st.ctx, Field(ra, "inputKey")), cond, Field(ra, "value"))
    case Throws(f) => Threw(st1, f)
    case Holds(met) =>
      var branch := Branch(ra, met);
      if !Truthy(branch) then Ok(Emit(st1, Error(NoBranch)), Undef)
      else
        match Iterate(branch)
        case None => Threw(st1, NotIterable(branch))
        case Some(acts) =>
          FieldHeight(ra, if met then "actions" else "elseActions");
          IterateHeight(branch);
          Run(env, reg, acts, st1)
  }

  /** `processActions(config, context)`: runs `config.actions` on the
      given context. It resolves to the context, or rejects with the first
      error thrown. */
  function Process(env: Env, reg: Registry, config: Value, context: Context): (r: Outcome)
    ensures r.Ok? ==> r.ret == CtxRef
  {
    var st := State(context, []);
    if IsNullish(config) then Threw(st, NullishAccess)
    else
      match Iterate(Field(config, "actions"))
      case None => Threw(st, NotIterable(Field(config, "actions")))
      case Some(acts) => Run(env, reg, acts, st)
  }
}

=== FILE: plugin.dfy ===
/**
  The plugin registry: two independent name-to-handler maps, one for
  actions and one for transformations, filled by explicit registration.
  Plugin handlers are arbitrary caller code; here they are total functions
  that return a value (and, for actions, the context they leave behind)
  and never re-enter the dispatcher.
 */
module Plugin {
  import opened Values

  /** What a plugin action hands back: its return value and the context
      after whatever it did to it. */
  datatype Reply = Reply(ret: Value, ctx: Context)

  /** `(action, contextElement, context) => result` */
  type ActionHandler = (Value, Scope, Context) -> Reply

  /** `(value, config, context) => result` */
  type TransformHandler = (Value, Value, Context) -> Value

  datatype Registry = Registry(
    actions: map<string, ActionHandler>,
    transformations: map<string, TransformHandler>)

  /** The registry as the process starts: nothing registered. */
  function NewRegistry(): (r: Registry)
    ensures forall n :: n !in r.actions && n !in r.transformations
  {
    Registry(map[], map[])
  }

  /** `registerAction(name, h)`: afterwards `name` gives `h`, every other
      action name is as before, and the transformation map is untouched. */
  function RegisterAction(reg: Registry, name: string, h: ActionHandler): (r: Registry)
    ensures name in r.actions && r.actions[name] == h
    ensures forall n :: n != name ==> (n in r.actions <==> n in reg.actions)
    ensures forall n :: n != name && n in reg.actions ==> r.actions[n] == reg.actions[n]
    ensures r.transformations == reg.transformations
  {
    reg.(actions := reg.actions[name := h])
  }

  /** `registerTransformation(name, h)`: the mirror image of
      `RegisterAction`. */
  function RegisterTransformation(reg: Registry, name: string, h: TransformHandler): (r: Registry)
    ensures name in r.transformations && r.transformations[name] == h
    ensures forall n :: n != name ==> (n in r.transformations <==> n in reg.transformations)
    ensures forall n :: n != name && n in reg.transformations ==> r.transformations[n] == reg.transformations[n]
    ensures r.actions == reg.actions
  {
    reg.(transformations := reg.transformations[name := h])
  }

  /** Registering twice under one name keeps only the second handler. */
  lemma RegisterActionLastWins(reg: Registry, name: string, h1: ActionHandler, h2: ActionHandler)
    ensures RegisterAction(RegisterAction(reg, name, h1), name, h2) == RegisterAction(reg, name, h2)
  {
  }

  /** Registering twice under one name keeps only the second handler. */
  lemma RegisterTransformationLastWins(reg: Registry, name: string, h1: TransformHandler, h2: TransformHandler)
    ensures RegisterTransformation(RegisterTransformation(reg, name, h1), name, h2)
         == RegisterTransformation(reg, name, h2)
  {
  }

  /** The outcome of a two-tier name lookup. */
  datatype Handler<B, P> = BuiltIn(builtin: B) | FromPlugin(plugin: P) | Missing

  /** `builtIns[name] || plugins[name]`: the built-in tier is asked first. */
  function Lookup<B, P>(builtins: string -> Option<B>, plugins: map<string, P>, name: string): Handler<B, P>
  {
    match builtins(name)
    case Some(b) => BuiltIn(b)
    case None => if name in plugins then FromPlugin(plugins[name]) else Missing
  }

  /** A plugin entry never shadows a built-in of the same name, and is
      found whenever no built-in has that name. */
  lemma LookupTiers<B, P>(builtins: string -> Option<B>, plugins: map<string, P>, name: string, p: P)
    ensures builtins(name).Some? ==>
              Lookup(builtins, plugins[name := p], name) == BuiltIn(builtins(name).value)
    ensures builtins(name).None? ==> Lookup(builtins, plugins[name := p], name) == FromPlugin(p)
    ensures Lookup(builtins, plugins, name).Missing? <==> builtins(name).None? && name !in plugins
  {
  }
}

=== FILE: properties.dfy ===
/**
  What the dispatcher promises, stated over whole runs: order, the
  handling of unknown types, `outputKey`, built-in precedence, and the
  behaviour of `loop` and `condition` (including the early resolution of
  their nested lists).
 */
module PipelineProperties {
  import opened Values
  import opened Effects
  import opened Plugin
  import Resolver
  import Conditions
  import opened Actions
  import opened Pipeline

  // ---------------------------------------------------------------------
  // Order

  /** Running `xs + ys` is running `xs` and then `ys` on whatever `xs`
      left behind; a throw in `xs` means `ys` never runs. */
  lemma {:induction false} RunAppend(env: Env, reg: Registry, xs: seq<Value>, ys: seq<Value>, st: State)
    ensures Run(env, reg, xs + ys, st)
         == match Run(env, reg, xs, st)
            case Ok(s, _) => Run(env, reg, ys, s)
            case Threw(s, f) => Threw(s, f)
    decreases |xs|
  {
    if xs == [] {
      assert xs + ys == ys;
    } else {
      assert (xs + ys)[0] == xs[0];
      assert (xs + ys)[1..] == xs[1..] + ys;
      match Step(env, reg, xs[0], st)
      case Threw(_, _) =>
      case Ok(s, _) => RunAppend(env, reg, xs[1..], ys, s);
    }
  }

  // ---------------------------------------------------------------------
  // Dispatch

  /** A descriptor whose resolved `type` has no handler changes nothing
      but the console: one report naming the raw `transformation`, or else
      the raw `type`. */
  lemma UnknownTypeSkipped(env: Env, reg: Registry, a: Value, st: State)
    requires !IsNullish(a)
    requires LookupAction(reg, PropertyKey(Field(Resolver.Resolve(a, st.ctx), "type"))).Missing?
    ensures var r := Step(env, reg, a, st);
            && r.Ok? && r.st.ctx == st.ctx
            && r.st.trace == st.trace + [Error(UnknownActionType(Or(Field(a, "transformation"), Field(a, "type"))))]
  {
  }

  /** A descriptor with a `transformation` but no `type` is not run as a
      transformation: it is an unknown action, reported by its
      transformation name, and the context is untouched. */
  lemma TransformationOnlyDescriptorNotRun(env: Env, reg: Registry, t: string, st: State)
    requires t != "" && "undefined" !in reg.actions
    ensures var a := Obj(map["transformation" := Str(t)]);
            Step(env, reg, a, st) == Ok(Emit(st, Error(UnknownActionType(Str(t)))), Undef)
  {
    var a := Obj(map["transformation" := Str(t)]);
    var ra := Resolver.Resolve(a, st.ctx);
    assert "type" !in ra.fields;
    assert LookupAction(reg, PropertyKey(Field(ra, "type"))).Missing? by {
      assert Field(ra, "type") == Undef;
      assert PropertyKey(Undef) == "undefined";
    }
    UnknownTypeSkipped(env, reg, a, st);
    assert Or(Field(a, "transformation"), Field(a, "type")) == Str(t);
  }

  /** Every handler's result lands under a truthy `outputKey`, and the
      rest of the context is what the handler left. */
  lemma StepStoresOutput(env: Env, reg: Registry, a: Value, st: State)
    requires !IsNullish(a)
    requires var ra := Resolver.Resolve(a, st.ctx);
             !LookupAction(reg, PropertyKey(Field(ra, "type"))).Missing? && Truthy(Field(ra, "outputKey"))
    ensures var ra := Resolver.Resolve(a, st.ctx);
            var r := Step(env, reg, a, st);
            var h := LookupAction(reg, PropertyKey(Field(ra, "type")));
            var o := Perform(env, reg, h, ra, ScopeOf(ra, st.ctx), st);
            && (r.Ok? <==> o.Ok?)
            && (r.Ok? ==> r.ret == o.ret
                          && PropertyKey(Field(ra, "outputKey")) in r.st.ctx
                          && r.st.ctx[PropertyKey(Field(ra, "outputKey"))] == o.ret)
  {
  }

  /** A plugin action registered under a built-in name is never called. */
  lemma BuiltinActionWins(reg: Registry, name: string, p: ActionHandler)
    requires BuiltinActionNamed(name).Some?
    ensures LookupAction(RegisterAction(reg, name, p), name) == BuiltIn(BuiltinActionNamed(name).value)
    ensures LookupAction(RegisterAction(reg, name, p), name) == LookupAction(reg, name)
  {
  }

  /** A plugin action under a fresh name receives the resolved descriptor,
      the scope element and the context, and its reply becomes the new
      context and the step's result. */
  lemma PluginActionRuns(env: Env, reg: Registry, name: string, p: ActionHandler, a: Value, st: State)
    requires BuiltinActionNamed(name).None? && !IsNullish(a)
    requires var ra := Resolver.Resolve(a, st.ctx);
             Field(ra, "type") == Str(name) && !Truthy(Field(ra, "outputKey"))
    ensures var ra := Resolver.Resolve(a, st.ctx);
            var reply := p(ra, ScopeOf(ra, st.ctx), st.ctx);
            Step(env, RegisterAction(reg, name, p), a, st) == Ok(State(reply.ctx, st.trace), reply.ret)
  {
  }

  // ---------------------------------------------------------------------
  // loop

  /** A falsy input (missing, "", 0, false, null) makes the loop run zero
      times and change nothing. */
  lemma LoopSkipsFalsyInput(env: Env, reg: Registry, ra: Value, st: State)
    requires !IsNullish(ra) && !Truthy(Get(st.ctx, Field(ra, "inputKey")))
    ensures Loop(env, reg, ra, st) == Ok(st, Undef)
  {
  }

  /** A truthy input that is neither an array nor a string throws before
      any item is visited. */
  lemma LoopRejectsNonIterable(env: Env, reg: Registry, ra: Value, st: State)
    requires !IsNullish(ra)
    requires var items := Get(st.ctx, Field(ra, "inputKey"));
             Truthy(items) && !items.Arr? && !items.Str?
    ensures Loop(env, reg, ra, st) == Threw(st, NotIterable(Get(st.ctx, Field(ra, "inputKey"))))
  {
  }

  /** Looping over `xs + ys` is looping over `xs` and then over `ys`. */
  lemma {:induction false} LoopIterAppend(env: Env, reg: Registry, itemKey: string, body: Value,
                                          xs: seq<Value>, ys: seq<Value>, st: State)
    ensures LoopIter(env, reg, itemKey, body, xs + ys, st)
         == match LoopIter(env, reg, itemKey, body, xs, st)
            case Ok(s, _) => LoopIter(env, reg, itemKey, body, ys, s)
            case Threw(s, f) => Threw(s, f)
    decreases |xs|
  {
    if xs == [] {
      assert xs + ys == ys;
    } else {
      assert (xs + ys)[0] == xs[0];
      assert (xs + ys)[1..] == xs[1..] + ys;
      var s1 := Put(st, itemKey, xs[0]);
      match Iterate(body)
      case None =>
      case Some(acts) =>
        match Run(env, reg, acts, s1)
        case Threw(_, _) =>
        case Ok(s2, _) => LoopIterAppend(env, reg, itemKey, body, xs[1..], ys, s2);
    }
  }

  /** After a loop with an empty body the item key holds the last item,
      and nothing else has changed. */
  lemma {:induction false} EmptyLoopKeepsLastItem(env: Env, reg: Registry, itemKey: string,
                                                  items: seq<Value>, st: State)
    requires |items| > 0
    ensures LoopIter(env, reg, itemKey, Arr([]), items, st)
         == Ok(Put(st, itemKey, items[|items| - 1]), Undef)
    decreases |items|
  {
    var s1 := Put(st, itemKey, items[0]);
    assert Run(env, reg, [], s1) == Ok(s1, CtxRef);
    if |items| > 1 {
      EmptyLoopKeepsLastItem(env, reg, itemKey, items[1..], s1);
      assert Put(s1, itemKey, items[|items| - 1]) == Put(st, itemKey, items[|items| - 1]);
    }
  }

  /** Every completed run of `acts` leaves the entry `itemKey` as it
      found it. */
  ghost predicate KeepsKey(env: Env, reg: Registry, acts: seq<Value>, itemKey: string)
  {
    forall s: State {:trigger Run(env, reg, acts, s)} ::
      Run(env, reg, acts, s).Ok? && itemKey in s.ctx ==>
        itemKey in Run(env, reg, acts, s).st.ctx && Run(env, reg, acts, s).st.ctx[itemKey] == s.ctx[itemKey]
  }

  /** An empty body keeps every key. */
  lemma EmptyBodyKeepsKey(env: Env, reg: Registry, itemKey: string)
    ensures KeepsKey(env, reg, [], itemKey)
  {
    forall s: State ensures Run(env, reg, [], s) == Ok(s, CtxRef) {
    }
  }

  /** After a completed loop over a non-empty list, the item key holds the
      last item, whatever the body does, as long as the body itself does
      not rewrite that key. */
  lemma {:induction false} LoopLeavesLastItem(env: Env, reg: Registry, itemKey: string, body: Value,
                                              acts: seq<Value>, items: seq<Value>, st: State)
    requires Iterate(body) == Some(acts) && KeepsKey(env, reg, acts, itemKey)
    requires |items| > 0
    ensures var r := LoopIter(env, reg, itemKey, body, items, st);
            r.Ok? ==> itemKey in r.st.ctx && r.st.ctx[itemKey] == items[|items| - 1]
    decreases |items|
  {
    var s1 := Put(st, itemKey, items[0]);
    var run := Run(env, reg, acts, s1);
    if run.Ok? {
      assert itemKey in run.st.ctx && run.st.ctx[itemKey] == items[0];
      if |items| > 1 {
        LoopLeavesLastItem(env, reg, itemKey, body, acts, items[1..], run.st);
      }
    }
  }

  /** The same at the level of the `loop` action: a completed loop over a
      non-empty iterable input ends with `itemKey` naming its last item. */
  lemma LoopEndsAtLastItem(env: Env, reg: Registry, ra: Value, acts: seq<Value>, xs: seq<Value>, st: State)
    requires !IsNullish(ra)
    requires Iterate(LoopItems(ra, st.ctx)) == Some(xs) && |xs| > 0
    requires Iterate(Field(ra, "actions")) == Some(acts)
    requires KeepsKey(env, reg, acts, PropertyKey(Field(ra, "itemKey")))
    ensures var r := Loop(env, reg, ra, st);
            r.Ok? ==> PropertyKey(Field(ra, "itemKey")) in r.st.ctx
                      && r.st.ctx[PropertyKey(Field(ra, "itemKey"))] == xs[|xs| - 1]
  {
    LoopLeavesLastItem(env, reg, PropertyKey(Field(ra, "itemKey")), Field(ra, "actions"), acts, xs, st);
  }

  // ---------------------------------------------------------------------
  // condition

  /** A recognised condition that holds (or fails) runs `actions` (or
      `elseActions`) on the same state, and a completed branch returns the
      context. */
  lemma ConditionRunsChosenBranch(env: Env, reg: Registry, ra: Value, st: State, met: bool)
    requires !IsNullish(ra) && Conditions.KnownCondition(Field(ra, "condition"))
    requires Conditions.ApplyCondition(Get(st.ctx, Field(ra, "inputKey")), Field(ra, "condition"), Field(ra, "value"))
             == Conditions.Holds(met)
    requires Truthy(Branch(ra, met)) && Iterate(Branch(ra, met)).Some?
    ensures Condition(env, reg, ra, st) == Run(env, reg, Iterate(Branch(ra, met)).value, st)
    ensures Condition(env, reg, ra, st).Ok? ==> Condition(env, reg, ra, st).ret == CtxRef
  {
  }

  /** An unrecognised condition name is reported and then counts as
      false: `elseActions` runs on the state that holds the report. */
  lemma ConditionUnknownName(env: Env, reg: Registry, ra: Value, acts: seq<Value>, st: State)
    requires !IsNullish(ra) && !Conditions.KnownCondition(Field(ra, "condition"))
    requires Truthy(Field(ra, "elseActions")) && Iterate(Field(ra, "elseActions")) == Some(acts)
    ensures Condition(env, reg, ra, st)
         == Run(env, reg, acts, Emit(st, Error(UnknownCondition(Field(ra, "condition")))))
  {
    Conditions.UnknownConditionIsFalse(Get(st.ctx, Field(ra, "inputKey")), Field(ra, "condition"), Field(ra, "value"));
  }

  /** When the chosen list is missing the condition reports it, changes
      no context entry and returns `undefined`. */
  lemma ConditionWithoutBranch(env: Env, reg: Registry, ra: Value, st: State, met: bool)
    requires !IsNullish(ra)
    requires Conditions.ApplyCondition(Get(st.ctx, Field(ra, "inputKey")), Field(ra, "condition"), Field(ra, "value"))
             == Conditions.Holds(met)
    requires !Truthy(Branch(ra, met))
    ensures var r := Condition(env, reg, ra, st);
            && r.Ok? && r.ret == Undef && r.st.ctx == st.ctx
            && |r.st.trace| > 0 && r.st.trace[|r.st.trace| - 1] == Error(NoBranch)
  {
  }

  /** A condition whose evaluation throws (`contains` on a number, say)
      rejects the run without running either list. */
  lemma ConditionPropagatesThrow(env: Env, reg: Registry, ra: Value, st: State)
    requires !IsNullish(ra)
    requires Conditions.ApplyCondition(Get(st.ctx, Field(ra, "inputKey")), Field(ra, "condition"), Field(ra, "value")).Throws?
    ensures Condition(env, reg, ra, st).Threw? && Condition(env, reg, ra, st).st.ctx == st.ctx
  {
  }
}

=== FILE: resolver.dfy ===
/**
  Placeholder resolution (`resolveContextKeys` in src/processActions.js):
  every `${word}` in every string of a descriptor is replaced by the
  context's value for `word`, converted to a string, or by "" when that
  value is missing or falsy. The same scan formats `log` messages.
 */
module Resolver {
  import opened Values

  /** `\w`: an ASCII letter, digit or underscore. */
  predicate IsWordChar(c: char)
  {
    ('a' <= c <= 'z') || ('A' <= c <= 'Z') || ('0' <= c <= '9') || c == '_'
  }

  /** A placeholder name: one or more word characters. */
  predicate IsWord(k: string)
  {
    |k| > 0 && forall i :: 0 <= i < |k| ==> IsWordChar(k[i])
  }

  /** The length of the longest prefix of `s` made of word characters. */
  function WordRun(s: string): (n: nat)
    ensures n <= |s|
    ensures forall i :: 0 <= i < n ==> IsWordChar(s[i])
    ensures n < |s| ==> !IsWordChar(s[n])
  {
    if s == [] || !IsWordChar(s[0]) then 0 else 1 + WordRun(s[1..])
  }

  /** The placeholder `s` starts with, if any: the regular expression
      `\$\{(\w+)\}` matched at index 0. Since `}` is not a word character,
      the name is exactly the maximal run of word characters after `${`. */
  function TokenAt(s: string): (r: Option<string>)
    ensures r.Some? ==> IsWord(r.value) && |r.value| + 3 <= |s|
                        && s[..|r.value| + 3] == "${" + r.value + "}"
  {
    if |s| >= 2 && s[0] == '$' && s[1] == '{' then
      var n := WordRun(s[2..]);
      if n > 0 && 2 + n < |s| && s[2 + n] == '}' then
        var w := s[2..2 + n];
        assert IsWord(w) by {
          forall i | 0 <= i < |w| ensures IsWordChar(w[i]) {
            assert w[i] == s[2..][i];
          }
        }
        assert s[..n + 3] == "${" + w + "}";
        Some(w)
      else None
    else None
  }

  /** `context[key] || ''`, as the text that replaces the placeholder. */
  function Lookup(ctx: Context, key: string): string
  {
    if key in ctx && Truthy(ctx[key]) then ToJsString(ctx[key]) else ""
  }

  /** `s.replace(/\$\{(\w+)\}/g, (_, key) => context[key] || '')`: a single
      left-to-right pass; substituted text is not scanned again. */
  function Interpolate(s: string, ctx: Context): string
    decreases |s|
  {
    if s == [] then []
    else
      match TokenAt(s)
      case Some(k) => Lookup(ctx, k) + Interpolate(s[|k| + 3..], ctx)
      case None => [s[0]] + Interpolate(s[1..], ctx)
  }

  /** `resolveContextKeys(value, context)`: strings are interpolated,
      arrays and objects are copied with every element resolved (object
      keys are left alone), everything else is returned as it is. */
  function Resolve(v: Value, ctx: Context): Value
  {
    match v
    case Str(s) => Str(Interpolate(s, ctx))
    case Arr(a) => Arr(seq(|a|, i requires 0 <= i < |a| => Resolve(a[i], ctx)))
    case Obj(m) => Obj(map k | k in m :: Resolve(m[k], ctx))
    case _ => v
  }

  /** Resolution never changes how deeply a descriptor nests, so the
      dispatcher's recursion on a resolved descriptor still terminates. */
  lemma {:induction false} ResolveHeight(v: Value, ctx: Context)
    ensures Height(Resolve(v, ctx)) == Height(v)
  {
    match v
    case Arr(a) =>
      var b := Resolve(v, ctx).items;
      forall i | 0 <= i < |a| ensures Height(b[i]) == Height(a[i]) {
        ResolveHeight(a[i], ctx);
      }
      assert Heights(b) == Heights(a) by {
        forall h | h in Heights(a) ensures h in Heights(b) {
          var i :| 0 <= i < |a| && Height(a[i]) == h;
          assert Height(b[i]) == h;
        }
      }
    case Obj(m) =>
      var r := Resolve(v, ctx);
      forall k | k in m ensures Height(r.fields[k]) == Height(m[k]) {
        ResolveHeight(m[k], ctx);
      }
      assert FieldHeights(r) == FieldHeights(v) by {
        forall h | h in FieldHeights(v) ensures h in FieldHeights(r) {
          var k :| k in m && Height(m[k]) == h;
          assert Height(r.fields[k]) == h;
        }
      }
    case _ =>
  }

  // ---------------------------------------------------------------------
  // Properties of the string pass

  /** `s` holds no placeholder anywhere. */
  predicate NoTokens(s: string)
  {
    forall i :: 0 <= i < |s| ==> TokenAt(s[i..]).None?
  }

  /** A string without placeholders comes back unchanged. */
  lemma {:induction false} InterpolatePlain(s: string, ctx: Context)
    requires NoTokens(s)
    ensures Interpolate(s, ctx) == s
    decreases |s|
  {
    if s != [] {
      assert TokenAt(s[0..]).None?;
      assert s[0..] == s;
      assert NoTokens(s[1..]) by {
        forall i | 0 <= i < |s[1..]| ensures TokenAt(s[1..][i..]).None? {
          assert s[1..][i..] == s[i + 1..];
        }
      }
      InterpolatePlain(s[1..], ctx);
      assert s == [s[0]] + s[1..];
    }
  }

  /** `s` has no `$`, so no placeholder can start anywhere in it. */
  predicate DollarFree(s: string)
  {
    '$' !in s
  }

  /** Text without a `$` is copied through verbatim. */
  lemma {:induction false} InterpolateLiteral(lit: string, rest: string, ctx: Context)
    requires DollarFree(lit)
    ensures Interpolate(lit + rest, ctx) == lit + Interpolate(rest, ctx)
    decreases |lit|
  {
    if lit != [] {
      var s := lit + rest;
      assert s[0] == lit[0];
      assert s[1..] == lit[1..] + rest;
      assert lit == [lit[0]] + lit[1..];
      InterpolateLiteral(lit[1..], rest, ctx);
    } else {
      assert lit + rest == rest;
    }
  }

  /** A `$` that does not open `${` is copied and the scan moves on. */
  lemma InterpolateStrayDollar(t: string, ctx: Context)
    requires t == [] || t[0] != '{'
    ensures Interpolate("$" + t, ctx) == "$" + Interpolate(t, ctx)
  {
    var s := "$" + t;
    assert TokenAt(s).None? by {
      assert |s| < 2 || s[1] != '{';
    }
    assert s[1..] == t;
  }

  /** Text without a `$` resolves to itself. */
  lemma InterpolateDollarFree(s: string, ctx: Context)
    requires DollarFree(s)
    ensures Interpolate(s, ctx) == s
  {
    InterpolateLiteral(s, "", ctx);
    assert s + "" == s;
  }

  lemma {:induction false} WordRunOfWord(k: string, t: string)
    requires forall i :: 0 <= i < |k| ==> IsWordChar(k[i])
    requires t != [] && !IsWordChar(t[0])
    ensures WordRun(k + t) == |k|
    decreases |k|
  {
    if k != [] {
      assert (k + t)[1..] == k[1..] + t;
      WordRunOfWord(k[1..], t);
    } else {
      assert k + t == t;
    }
  }

  /** A placeholder `${k}` is replaced by `context[k] || ''` and the scan
      continues right after its closing brace. */
  lemma InterpolateToken(k: string, rest: string, ctx: Context)
    requires IsWord(k)
    ensures Interpolate("${" + k + "}" + rest, ctx) == Lookup(ctx, k) + Interpolate(rest, ctx)
  {
    var s := "${" + k + "}" + rest;
    assert s[2..] == k + ("}" + rest);
    WordRunOfWord(k, "}" + rest);
    assert s[2 + |k|] == '}';
    assert s[2..2 + |k|] == k;
    assert TokenAt(s) == Some(k);
    assert s[|k| + 3..] == rest;
  }

  /** A missing key and every falsy value (`0`, `false`, `""`, `null`,
      `undefined`) all turn into ""; a truthy value into its string form. */
  lemma LookupBlanks(ctx: Context, key: string)
    ensures key !in ctx ==> Lookup(ctx, key) == ""
    ensures key in ctx && ctx[key] in {Num(0), Bool(false), Str(""), Null, Undef} ==> Lookup(ctx, key) == ""
    ensures key in ctx && ctx[key].Str? ==> Lookup(ctx, key) == ctx[key].s
    ensures key in ctx && ctx[key].Num? && ctx[key].n != 0 ==> Lookup(ctx, key) == IntToDecimal(ctx[key].n)
  {
  }

  /** Literal text followed by one placeholder: the text is kept and the
      placeholder is replaced by `context[k] || ''`. */
  lemma InterpolateTextThenToken(lit: string, k: string, ctx: Context)
    requires DollarFree(lit) && IsWord(k)
    ensures Interpolate(lit + "${" + k + "}", ctx) == lit + Lookup(ctx, k)
  {
    var tok := "${" + k + "}";
    assert lit + "${" + k + "}" == lit + tok;
    InterpolateLiteral(lit, tok, ctx);
    assert tok == tok + "";
    InterpolateToken(k, "", ctx);
    assert Interpolate("", ctx) == "";
    assert Lookup(ctx, k) + "" == Lookup(ctx, k);
  }

  /** A sample resolution: `x=${foo}` with `foo` set to "bar". */
  lemma InterpolateExample(ctx: Context)
    requires "foo" in ctx && ctx["foo"] == Str("bar")
    ensures Interpolate("x=${foo}", ctx) == "x=bar"
  {
    assert Interpolate("x=" + "${" + "foo" + "}", ctx) == "x=" + "bar" by {
      assert IsWord("foo");
      InterpolateTextThenToken("x=", "foo", ctx);
      LookupBlanks(ctx, "foo");
    }
    assert "x=${foo}" == "x=" + "${" + "foo" + "}";
    assert "x=" + "bar" == "x=bar";
  }

  /** A sample resolution: a missing key gives "". */
  lemma InterpolateMissingExample(ctx: Context)
    requires "missing" !in ctx
    ensures Interpolate("x=${missing}", ctx) == "x="
  {
    assert "x=${missing}" == "x=" + "${" + "missing" + "}";
    assert IsWord("missing");
    InterpolateTextThenToken("x=", "missing", ctx);
    assert Lookup(ctx, "missing") == "";
  }

  // ---------------------------------------------------------------------
  // Properties of resolution as a whole

  /** `a` and `b` have the same shape: strings where `a` has strings,
      arrays of the same length, objects with the same keys, and every
      other value identical. */
  ghost predicate SameShape(a: Value, b: Value)
  {
    match a
    case Str(_) => b.Str?
    case Arr(xs) =>
      b.Arr? && |b.items| == |xs| && forall i :: 0 <= i < |xs| ==> SameShape(xs[i], b.items[i])
    case Obj(m) =>
      b.Obj? && b.fields.Keys == m.Keys && forall k :: k in m ==> SameShape(m[k], b.fields[k])
    case _ => b == a
  }

  /** Resolution preserves shape: array lengths and order, object key sets
      (keys are never resolved), numbers, booleans, null and undefined. */
  lemma {:induction false} ResolveKeepsShape(v: Value, ctx: Context)
    ensures SameShape(v, Resolve(v, ctx))
  {
    match v
    case Arr(a) =>
      forall i | 0 <= i < |a| ensures SameShape(a[i], Resolve(v, ctx).items[i]) {
        ResolveKeepsShape(a[i], ctx);
      }
    case Obj(m) =>
      forall k | k in m ensures SameShape(m[k], Resolve(v, ctx).fields[k]) {
        ResolveKeepsShape(m[k], ctx);
      }
    case _ =>
  }

  /** Every string inside `v` is free of placeholders. */
  ghost predicate Plain(v: Value)
  {
    match v
    case Str(s) => NoTokens(s)
    case Arr(xs) => forall i :: 0 <= i < |xs| ==> Plain(xs[i])
    case Obj(m) => forall k :: k in m ==> Plain(m[k])
    case _ => true
  }

  /** A descriptor without placeholders resolves to itself, whatever the
      context holds. */
  lemma {:induction false} ResolvePlain(v: Value, ctx: Context)
    requires Plain(v)
    ensures Resolve(v, ctx) == v
  {
    match v
    case Str(s) =>
      InterpolatePlain(s, ctx);
    case Arr(a) =>
      forall i | 0 <= i < |a| ensures Resolve(a[i], ctx) == a[i] {
        ResolvePlain(a[i], ctx);
      }
      assert Resolve(v, ctx).items == a;
    case Obj(m) =>
      forall k | k in m ensures Resolve(m[k], ctx) == m[k] {
        ResolvePlain(m[k], ctx);
      }
      assert Resolve(v, ctx).fields == m;
    case _ =>
  }
}

=== FILE: text.dfy ===
/**
  The JavaScript string built-ins the pipeline relies on, over `seq<char>`:
  `Array.prototype.join`, `String.prototype.split` with a string separator,
  `String.prototype.includes`, ASCII `toUpperCase`/`toLowerCase` and the
  character ordering behind `<` on two strings.
 */
module Text {

  /** `pieces.join(sep)`: the pieces with `sep` between neighbours. */
  function Join(pieces: seq<string>, sep: string): string
  {
    if |pieces| == 0 then ""
    else if |pieces| == 1 then pieces[0]
    else pieces[0] + sep + Join(pieces[1..], sep)
  }

  /** `d` occurs in `s` starting at index `q`. */
  predicate MatchesAt(s: string, d: string, q: nat)
  {
    q + |d| <= |s| && s[q..q + |d|] == d
  }

  /** `s.includes(t)`: `t` occurs somewhere in `s`. */
  predicate Contains(s: string, t: string)
  {
    exists q: nat | q <= |s| :: MatchesAt(s, t, q)
  }

  /** The left-to-right scan of `String.prototype.split` for a non-empty
      separator: `p` is where the current piece starts, `q` the position
      being checked for a match. */
  function SplitFrom(s: string, d: string, p: nat, q: nat): seq<string>
    requires d != "" && p <= q <= |s|
    decreases |s| - q
  {
    if q + |d| > |s| then [s[p..]]
    else if s[q..q + |d|] == d then [s[p..q]] + SplitFrom(s, d, q + |d|, q + |d|)
    else SplitFrom(s, d, p, q + 1)
  }

  /** The single characters of `s`, in order. */
  function Chars(s: string): seq<string>
  {
    seq(|s|, i requires 0 <= i < |s| => [s[i]])
  }

  /** `s.split(d)` for a string separator: an empty separator cuts `s` into
      its characters (so `"".split("")` is `[]`); otherwise `s` is cut at
      every non-overlapping occurrence of `d`, found left to right. */
  function Split(s: string, d: string): seq<string>
  {
    if d == "" then Chars(s) else SplitFrom(s, d, 0, 0)
  }

  /** The number of non-overlapping occurrences of `d` in `s[q..]`, counted
      greedily from the left. */
  function CountFrom(s: string, d: string, q: nat): nat
    requires d != "" && q <= |s|
    decreases |s| - q
  {
    if q + |d| > |s| then 0
    else if s[q..q + |d|] == d then 1 + CountFrom(s, d, q + |d|)
    else CountFrom(s, d, q + 1)
  }

  function Occurrences(s: string, d: string): nat
    requires d != ""
  {
    CountFrom(s, d, 0)
  }

  // ---------------------------------------------------------------------
  // Split / join

  lemma {:induction false} JoinSplitFrom(s: string, d: string, p: nat, q: nat)
    requires d != "" && p <= q <= |s|
    ensures |SplitFrom(s, d, p, q)| >= 1
    ensures Join(SplitFrom(s, d, p, q), d) == s[p..]
    decreases |s| - q
  {
    if q + |d| > |s| {
    } else if s[q..q + |d|] == d {
      JoinSplitFrom(s, d, q + |d|, q + |d|);
      var rest := SplitFrom(s, d, q + |d|, q + |d|);
      var piece := s[p..q];
      assert SplitFrom(s, d, p, q) == [piece] + rest;
      assert Join([piece] + rest, d) == piece + d + Join(rest, d) by {
        assert ([piece] + rest)[0] == piece;
        assert ([piece] + rest)[1..] == rest;
      }
      assert s[p..] == piece + d + s[q + |d|..] by {
        assert s[q..q + |d|] == d;
        assert s[p..] == s[p..q] + s[q..q + |d|] + s[q + |d|..];
      }
    } else {
      JoinSplitFrom(s, d, p, q + 1);
    }
  }

  lemma {:induction false} JoinChars(s: string, sep: string)
    requires sep == ""
    ensures Join(Chars(s), sep) == s
    decreases |s|
  {
    if |s| > 1 {
      JoinChars(s[1..], sep);
      assert Chars(s)[1..] == Chars(s[1..]);
      assert s == [s[0]] + s[1..];
    }
  }

  /** Splitting at `d` and joining with `d` gives the string back. */
  lemma SplitJoinRoundTrip(s: string, d: string)
    ensures Join(Split(s, d), d) == s
  {
    if d == "" {
      JoinChars(s, d);
    } else {
      JoinSplitFrom(s, d, 0, 0);
    }
  }

  lemma {:induction false} SplitFromCount(s: string, d: string, p: nat, q: nat)
    requires d != "" && p <= q <= |s|
    ensures |SplitFrom(s, d, p, q)| == CountFrom(s, d, q) + 1
    decreases |s| - q
  {
    if q + |d| > |s| {
    } else if s[q..q + |d|] == d {
      SplitFromCount(s, d, q + |d|, q + |d|);
    } else {
      SplitFromCount(s, d, p, q + 1);
    }
  }

  /** A split at a non-empty separator yields one piece more than there
      are occurrences of the separator. */
  lemma SplitPieceCount(s: string, d: string)
    requires d != ""
    ensures |Split(s, d)| == Occurrences(s, d) + 1
  {
    SplitFromCount(s, d, 0, 0);
  }

  lemma SliceMatch(s: string, d: string, p: nat, q: nat, x: nat)
    requires p <= q <= |s| && MatchesAt(s[p..q], d, x)
    ensures MatchesAt(s, d, p + x)
  {
    var a, b := s[p..q][x..x + |d|], s[p + x..p + x + |d|];
    assert |a| == |b|;
    forall j | 0 <= j < |a|
      ensures a[j] == b[j]
    {
      assert a[j] == s[p..q][x + j];
    }
    assert a == b;
  }

  lemma {:induction false} SplitFromPiecesFree(s: string, d: string, p: nat, q: nat)
    requires d != "" && p <= q <= |s|
    requires forall x: nat :: p <= x < q ==> !MatchesAt(s, d, x)
    ensures forall i :: 0 <= i < |SplitFrom(s, d, p, q)| ==> !Contains(SplitFrom(s, d, p, q)[i], d)
    decreases |s| - q
  {
    if q + |d| > |s| {
      forall x: nat | MatchesAt(s[p..|s|], d, x)
        ensures MatchesAt(s, d, p + x)
      {
        SliceMatch(s, d, p, |s|, x);
      }
      assert s[p..] == s[p..|s|];
    } else if s[q..q + |d|] == d {
      SplitFromPiecesFree(s, d, q + |d|, q + |d|);
      forall x: nat | MatchesAt(s[p..q], d, x)
        ensures MatchesAt(s, d, p + x)
      {
        SliceMatch(s, d, p, q, x);
      }
      assert SplitFrom(s, d, p, q) == [s[p..q]] + SplitFrom(s, d, q + |d|, q + |d|);
    } else {
      SplitFromPiecesFree(s, d, p, q + 1);
    }
  }

  /** No piece of a split contains the separator. */
  lemma SplitPiecesAvoidSeparator(s: string, d: string)
    requires d != ""
    ensures forall i :: 0 <= i < |Split(s, d)| ==> !Contains(Split(s, d)[i], d)
  {
    SplitFromPiecesFree(s, d, 0, 0);
  }

  lemma {:induction false} CountFromZero(s: string, d: string, q: nat)
    requires d != "" && q <= |s|
    ensures CountFrom(s, d, q) == 0 <==> forall x: nat :: q <= x ==> !MatchesAt(s, d, x)
    decreases |s| - q
  {
    if q + |d| > |s| {
    } else if s[q..q + |d|] == d {
      assert MatchesAt(s, d, q);
    } else {
      CountFromZero(s, d, q + 1);
    }
  }

  /** The occurrence count is zero exactly when `s.includes(d)` is false. */
  lemma OccurrencesZeroIffAbsent(s: string, d: string)
    requires d != ""
    ensures Occurrences(s, d) == 0 <==> !Contains(s, d)
  {
    CountFromZero(s, d, 0);
  }

  lemma {:induction false} SplitFromAbsent(s: string, d: string, p: nat, q: nat)
    requires d != "" && p <= q <= |s|
    requires forall x: nat :: q <= x ==> !MatchesAt(s, d, x)
    ensures SplitFrom(s, d, p, q) == [s[p..]]
    decreases |s| - q
  {
    if q + |d| > |s| {
    } else {
      assert !MatchesAt(s, d, q);
      SplitFromAbsent(s, d, p, q + 1);
    }
  }

  /** When the separator does not occur, the split is the whole string. */
  lemma SplitAbsent(s: string, d: string)
    requires d != "" && !Contains(s, d)
    ensures Split(s, d) == [s]
  {
    SplitFromAbsent(s, d, 0, 0);
  }

  // ---------------------------------------------------------------------
  // ASCII case mapping

  predicate IsLowerAscii(c: char) { 'a' <= c <= 'z' }

  predicate IsUpperAscii(c: char) { 'A' <= c <= 'Z' }

  function UpperChar(c: char): char
  {
    if IsLowerAscii(c) then (c as int - 32) as char else c
  }

  function LowerChar(c: char): char
  {
    if IsUpperAscii(c) then (c as int + 32) as char else c
  }

  /** `toUpperCase` restricted to ASCII letters. */
  function ToUpper(s: string): string
  {
    seq(|s|, i requires 0 <= i < |s| => UpperChar(s[i]))
  }

  /** `toLowerCase` restricted to ASCII letters. */
  function ToLower(s: string): string
  {
    seq(|s|, i requires 0 <= i < |s| => LowerChar(s[i]))
  }

  /** Upper-casing keeps the length, leaves no lower-case ASCII letter,
      touches nothing but lower-case ASCII letters, and is idempotent. */
  lemma UppercaseProperties(s: string)
    ensures |ToUpper(s)| == |s|
    ensures forall i :: 0 <= i < |s| ==> !IsLowerAscii(ToUpper(s)[i])
    ensures forall i :: 0 <= i < |s| && !IsLowerAscii(s[i]) ==> ToUpper(s)[i] == s[i]
    ensures forall i :: 0 <= i < |s| && IsLowerAscii(s[i]) ==> ToUpper(s)[i] as int == s[i] as int - 32
    ensures ToUpper(ToUpper(s)) == ToUpper(s)
  {
  }

  /** Lower-casing keeps the length, leaves no upper-case ASCII letter,
      touches nothing but upper-case ASCII letters, and is idempotent. */
  lemma LowercaseProperties(s: string)
    ensures |ToLower(s)| == |s|
    ensures forall i :: 0 <= i < |s| ==> !IsUpperAscii(ToLower(s)[i])
    ensures forall i :: 0 <= i < |s| && !IsUpperAscii(s[i]) ==> ToLower(s)[i] == s[i]
    ensures forall i :: 0 <= i < |s| && IsUpperAscii(s[i]) ==> ToLower(s)[i] as int == s[i] as int + 32
    ensures ToLower(ToLower(s)) == ToLower(s)
  {
  }

  // ---------------------------------------------------------------------
  // String ordering

  /** `a < b` on two strings: character by character, a proper prefix first. */
  predicate StrLess(a: string, b: string)
    decreases |a|
  {
    if |a| == 0 then |b| > 0
    else if |b| == 0 then false
    else if a[0] != b[0] then a[0] < b[0]
    else StrLess(a[1..], b[1..])
  }

  /** Exactly one of `a < b`, `a == b`, `b < a` holds. */
  lemma {:induction false} StrLessTrichotomy(a: string, b: string)
    ensures StrLess(a, b) || a == b || StrLess(b, a)
    ensures !(StrLess(a, b) && StrLess(b, a))
    ensures StrLess(a, b) ==> a != b
    decreases |a|
  {
    if |a| == 0 || |b| == 0 {
    } else if a[0] != b[0] {
    } else {
      StrLessTrichotomy(a[1..], b[1..]);
      if a[1..] == b[1..] {
        assert a == [a[0]] + a[1..] && b == [b[0]] + b[1..];
      }
    }
  }
}

=== FILE: transformations.dfy ===
/**
  The built-in transformations (`builtInTransformations` in
  src/transformations.js) and the two-tier lookup that finds a
  transformation by name. A transformation maps `(value, config, context)`
  to a new value; it may write diagnostics but never changes the context.
 */
module Transformations {
  import opened Values
  import Text
  import opened Effects
  import opened Plugin

  datatype BuiltinTransformation = Uppercase | Lowercase | Replace | SplitText | JsonParse | Chain

  function BuiltinTransformationNamed(name: string): Option<BuiltinTransformation>
  {
    if name == "uppercase" then Some(Uppercase)
    else if name == "lowercase" then Some(Lowercase)
    else if name == "replace" then Some(Replace)
    else if name == "split" then Some(SplitText)
    else if name == "jsonParse" then Some(JsonParse)
    else if name == "transform" then Some(Chain)
    else None
  }

  /** `builtInTransformations[name] || plugins.transformations[name]` */
  function LookupTransformation(reg: Registry, name: string): Handler<BuiltinTransformation, TransformHandler>
  {
    Lookup(BuiltinTransformationNamed, reg.transformations, name)
  }

  /** `JSON.parse` on a text: the parsed value, or `None` on a syntax error.
      The parser itself is a library routine outside the model. */
  type JsonParser = string -> Option<Value>

  /** The pieces `s.split(sep)` yields: the whole string when the
      separator is `undefined`, otherwise a split at its string form. */
  function SplitBy(s: string, sep: Value): seq<string>
  {
    if sep.Undef? then [s] else Text.Split(s, ToJsString(sep))
  }

  /** The separator `pieces.join(sep)` uses: "," for `undefined`. */
  function JoinSeparator(sep: Value): string
  {
    if sep.Undef? then "," else ToJsString(sep)
  }

  /** `context[replacement] || replacement` */
  function ReplacementValue(ctx: Context, replacement: Value): Value
  {
    Or(Get(ctx, replacement), replacement)
  }

  /** The fault of calling string method `member` on a non-string. */
  function NonStringFault(value: Value, member: string): Fault
  {
    if IsNullish(value) then NullishAccess else NotAFunction(member)
  }

  function CaseMap(value: Value, upper: bool, st: State): Outcome
  {
    match value
    case Str(s) => Ok(st, Str(if upper then Text.ToUpper(s) else Text.ToLower(s)))
    case _ => Threw(st, NonStringFault(value, if upper then "toUpperCase" else "toLowerCase"))
  }

  /** `replace`: `value.split(search).join(replacementValue)`. */
  function ReplaceIn(value: Value, config: Value, st: State): Outcome
  {
    if IsNullish(config) then Threw(st, NullishAccess)
    else
      var search := Field(config, "search");
      var rv := ReplacementValue(st.ctx, Field(config, "replacement"));
      match value
      case Str(s) => Ok(st, Str(Text.Join(SplitBy(s, search), JoinSeparator(rv))))
      case _ => Threw(st, NonStringFault(value, "split"))
  }

  /** `split`: `value.split(delimiter)` with "," when no delimiter is
      configured. */
  function SplitValue(value: Value, config: Value, st: State): Outcome
  {
    if IsNullish(config) then Threw(st, NullishAccess)
    else
      var delimiter := Field(config, "delimiter");
      var d := if delimiter.Undef? then Str(",") else delimiter;
      match value
      case Str(s) =>
        var pieces := Text.Split(s, ToJsString(d));
        Ok(st, Arr(seq(|pieces|, i requires 0 <= i < |pieces| => Str(pieces[i]))))
      case _ => Threw(st, NonStringFault(value, "split"))
  }

  /** `jsonParse`: the parsed value, or `null` plus a diagnostic. */
  function ParseJson(parse: JsonParser, value: Value, st: State): (r: Outcome)
    ensures r.Ok? && r.st.ctx == st.ctx
    ensures parse(ToJsString(value)).Some? <==> r.st.trace == st.trace
    ensures parse(ToJsString(value)).Some? ==> r.ret == parse(ToJsString(value)).value
    ensures parse(ToJsString(value)).None? ==>
              r.ret == Null && r.st.trace == st.trace + [Error(InvalidJson(ToJsString(value)))]
  {
    var text := ToJsString(value);
    match parse(text)
    case Some(v) => Ok(st, v)
    case None => Ok(Emit(st, Error(InvalidJson(text))), Null)
  }

  /** Runs a transformation handler found by name on `(value, config,
      context)`. The context is only read, and the console transcript only
      grows. */
  function Invoke(parse: JsonParser, reg: Registry, h: Handler<BuiltinTransformation, TransformHandler>,
                  value: Value, config: Value, st: State): (r: Outcome)
    requires !h.Missing?
    ensures r.st.ctx == st.ctx
    ensures st.trace <= r.st.trace
    decreases Height(config), 1
  {
    match h
    case FromPlugin(p) => Ok(st, p(value, config, st.ctx))
    case BuiltIn(b) =>
      match b
      case Uppercase => CaseMap(value, true, st)
      case Lowercase => CaseMap(value, false, st)
      case Replace => ReplaceIn(value, config, st)
      case SplitText => SplitValue(value, config, st)
      case JsonParse => ParseJson(parse, value, st)
      case Chain => ChainStep(parse, reg, value, config, st)
  }

  /** The `transform` transformation: look up `config.transformation` and
      run it with `config.params` as its configuration; an unknown name
      leaves the value as it is. Every chained step descends into `params`,
      so a chain is never deeper than the nesting of its configuration. */
  function ChainStep(parse: JsonParser, reg: Registry, value: Value, config: Value, st: State): (r: Outcome)
    ensures r.st.ctx == st.ctx
    ensures st.trace <= r.st.trace
    decreases Height(config), 0
  {
    if IsNullish(config) then Threw(st, NullishAccess)
    else
      var name := Field(config, "transformation");
      var h := LookupTransformation(reg, PropertyKey(name));
      if h.Missing? then Ok(Emit(st, Error(UnknownTransformation(name))), value)
      else
        FieldHeight(config, "params");
        Invoke(parse, reg, h, value, Field(config, "params"), st)
  }

  /** The `transform` transformation as src/transformations.js:31-40 is
      written: the module never imports `plugins`, so reading
      `plugins.transformations` throws a ReferenceError whenever the
      name is not a built-in. */
  function ChainStepAsWritten(parse: JsonParser, reg: Registry, value: Value, config: Value, st: State): (r: Outcome)
    ensures r.st.ctx == st.ctx
    ensures st.trace <= r.st.trace
    decreases Height(config)
  {
    if IsNullish(config) then Threw(st, NullishAccess)
    else
      var name := Field(config, "transformation");
      FieldHeight(config, "params");
      match BuiltinTransformationNamed(PropertyKey(name))
      case None => Threw(st, Unbound("plugins"))
      case Some(Chain) => ChainStepAsWritten(parse, reg, value, Field(config, "params"), st)
      case Some(b) => Invoke(parse, reg, BuiltIn(b), value, Field(config, "params"), st)
  }

  // ---------------------------------------------------------------------
  // Properties

  /** A plugin registered under a built-in name is never reached: the
      built-in answers, before and after the registration. */
  lemma BuiltinTransformationWins(reg: Registry, name: string, h: TransformHandler)
    requires BuiltinTransformationNamed(name).Some?
    ensures LookupTransformation(RegisterTransformation(reg, name, h), name)
         == BuiltIn(BuiltinTransformationNamed(name).value)
    ensures LookupTransformation(RegisterTransformation(reg, name, h), name) == LookupTransformation(reg, name)
  {
  }

  /** A plugin registered under any other name is what the lookup finds. */
  lemma PluginTransformationFound(reg: Registry, name: string, h: TransformHandler)
    requires BuiltinTransformationNamed(name).None?
    ensures LookupTransformation(RegisterTransformation(reg, name, h), name) == FromPlugin(h)
  {
  }

  /** `uppercase`/`lowercase` on a string fold ASCII case, keep the length
      and are idempotent; on anything else they throw. */
  lemma CaseFolding(value: Value, upper: bool, st: State)
    ensures value.Str? ==> CaseMap(value, upper, st).Ok? && CaseMap(value, upper, st).ret.Str?
    ensures value.Str? ==> |CaseMap(value, upper, st).ret.s| == |value.s|
    ensures value.Str? ==> CaseMap(CaseMap(value, upper, st).ret, upper, st) == CaseMap(value, upper, st)
    ensures !value.Str? ==> CaseMap(value, upper, st).Threw?
  {
    if value.Str? {
      Text.UppercaseProperties(value.s);
      Text.LowercaseProperties(value.s);
    }
  }

  /** `split` without a configured delimiter splits at ",". */
  lemma SplitDefaultsToComma(s: string, config: Value, st: State)
    requires config.Obj? && "delimiter" !in config.fields
    ensures SplitValue(Str(s), config, st) == SplitValue(Str(s), Obj(map["delimiter" := Str(",")]), st)
  {
  }

  /** For a non-empty delimiter `d`, `split` yields strings that join back
      to the input with `d`, one more of them than `d` has occurrences, and
      none containing `d`. */
  lemma SplitRoundTrip(s: string, d: string, st: State)
    requires d != ""
    ensures var r := SplitValue(Str(s), Obj(map["delimiter" := Str(d)]), st);
            && r.Ok? && r.ret.Arr?
            && (forall i :: 0 <= i < |r.ret.items| ==> r.ret.items[i].Str?)
            && |r.ret.items| == Text.Occurrences(s, d) + 1
            && Text.Join(seq(|r.ret.items|, i requires 0 <= i < |r.ret.items| => r.ret.items[i].s), d) == s
            && (forall i :: 0 <= i < |r.ret.items| ==> !Text.Contains(r.ret.items[i].s, d))
  {
    var pieces := Text.Split(s, d);
    var r := SplitValue(Str(s), Obj(map["delimiter" := Str(d)]), st);
    assert seq(|r.ret.items|, i requires 0 <= i < |r.ret.items| => r.ret.items[i].s) == pieces;
    Text.SplitJoinRoundTrip(s, d);
    Text.SplitPieceCount(s, d);
    Text.SplitPiecesAvoidSeparator(s, d);
  }

  /** `replace` leaves a string without the search text unchanged. */
  lemma ReplaceAbsent(s: string, d: string, config: Value, st: State)
    requires d != "" && !Text.Contains(s, d)
    requires config.Obj? && Field(config, "search") == Str(d)
    ensures ReplaceIn(Str(s), config, st) == Ok(st, Str(s))
  {
    Text.SplitAbsent(s, d);
  }

  /** `replace` puts `context[replacement]` in place of every occurrence
      when that value is truthy, and the literal `replacement` otherwise;
      replacing the search text with itself changes nothing. */
  lemma ReplaceInserts(s: string, d: string, rep: string, st: State)
    ensures var config := Obj(map["search" := Str(d), "replacement" := Str(rep)]);
            var text := if rep in st.ctx && Truthy(st.ctx[rep]) then ToJsString(st.ctx[rep]) else rep;
            ReplaceIn(Str(s), config, st) == Ok(st, Str(Text.Join(Text.Split(s, d), text)))
    ensures var config := Obj(map["search" := Str(d), "replacement" := Str(d)]);
            (d !in st.ctx || !Truthy(st.ctx[d])) ==> ReplaceIn(Str(s), config, st) == Ok(st, Str(s))
  {
    Text.SplitJoinRoundTrip(s, d);
  }

  /** The `transform` chain hands the value and `config.params` to the
      handler that `config.transformation` names, built-in first. */
  lemma ChainRoutes(parse: JsonParser, reg: Registry, value: Value, config: Value, st: State)
    requires config.Obj?
    requires !LookupTransformation(reg, PropertyKey(Field(config, "transformation"))).Missing?
    ensures ChainStep(parse, reg, value, config, st)
         == Invoke(parse, reg, LookupTransformation(reg, PropertyKey(Field(config, "transformation"))),
                   value, Field(config, "params"), st)
  {
  }

  /** A plugin transformation reached through the chain receives the value
      and `params` and its result is the chain's result. */
  lemma ChainReachesPlugin(parse: JsonParser, reg: Registry, name: string, p: TransformHandler,
                           value: Value, params: Value, st: State)
    requires BuiltinTransformationNamed(name).None?
    ensures var r := RegisterTransformation(reg, name, p);
            ChainStep(parse, r, value, Obj(map["transformation" := Str(name), "params" := params]), st)
            == Ok(st, p(value, params, st.ctx))
  {
  }

  /** The chain on an unknown name returns the value unchanged and
      reports it. */
  lemma ChainUnknownKeepsValue(parse: JsonParser, reg: Registry, value: Value, config: Value, st: State)
    requires !IsNullish(config)
    requires LookupTransformation(reg, PropertyKey(Field(config, "transformation"))).Missing?
    ensures ChainStep(parse, reg, value, config, st)
         == Ok(Emit(st, Error(UnknownTransformation(Field(config, "transformation")))), value)
  {
  }

  // ---------------------------------------------------------------------
  // The chain as written

  /** As written, the chain throws a ReferenceError for the plugin the
      intended lookup reaches: registering `name` and chaining to it
      fails, while the intended chain calls the plugin. */
  lemma ChainAsWrittenMissesPlugins(parse: JsonParser, reg: Registry, name: string, p: TransformHandler,
                                    value: Value, st: State)
    requires BuiltinTransformationNamed(name).None?
    ensures var r := RegisterTransformation(reg, name, p);
            var config := Obj(map["transformation" := Str(name)]);
            && ChainStepAsWritten(parse, r, value, config, st) == Threw(st, Unbound("plugins"))
            && ChainStep(parse, r, value, config, st) == Ok(st, p(value, Undef, st.ctx))
  {
    var config := Obj(map["transformation" := Str(name)]);
    assert Field(config, "transformation") == Str(name);
    assert Field(config, "params") == Undef;
  }

  /** On built-in names the chain as written and the intended chain
      agree: the missing import only matters once the lookup falls
      through to the plugin tier. */
  lemma ChainAsWrittenAgreesOnBuiltins(parse: JsonParser, reg: Registry, value: Value,
                                                          config: Value, st: State)
    requires !IsNullish(config)
    requires BuiltinTransformationNamed(PropertyKey(Field(config, "transformation"))).Some?
    requires BuiltinTransformationNamed(PropertyKey(Field(config, "transformation"))) != Some(Chain)
    ensures ChainStepAsWritten(parse, reg, value, config, st) == ChainStep(parse, reg, value, config, st)
  {
  }
}

=== FILE: values.dfy ===
/**
  JSON-like values as the pipeline sees them, and the handful of JavaScript
  semantics every component relies on: truthiness (what `x || y` tests),
  conversion to string (template text, property keys, `join`), property
  reads on descriptors and contexts, and `for ... of` iteration.
 */
module Values {
  import Text

  /** A JavaScript value. Numbers are integers. `CtxRef` is the live
      context object itself: the value a `condition` action returns when
      it dispatches a branch, which an `outputKey` then stores inside the
      context (a self-reference a plain tree cannot express). */
  datatype Value =
    | Str(s: string)
    | Num(n: int)
    | Bool(b: bool)
    | Null
    | Undef
    | Arr(items: seq<Value>)
    | Obj(fields: map<string, Value>)
    | CtxRef

  /** The shared key/value store of one pipeline run. */
  type Context = map<string, Value>

  /** The element a selector-based action searches in: the document root
      or a value taken from the context. */
  datatype Scope = Document | Element(node: Value)

  predicate IsNullish(v: Value)
  {
    v.Null? || v.Undef?
  }

  /** JavaScript truthiness: `""`, `0`, `false`, `null` and `undefined` are
      falsy; arrays and objects are truthy even when empty. */
  predicate Truthy(v: Value)
  {
    match v
    case Str(s) => s != ""
    case Num(n) => n != 0
    case Bool(b) => b
    case Null => false
    case Undef => false
    case _ => true
  }

  /** `a || b` */
  function Or(a: Value, b: Value): Value
  {
    if Truthy(a) then a else b
  }

  function DigitChar(d: nat): char
    requires d < 10
  {
    "0123456789"[d]
  }

  function NatToDecimal(n: nat): string
    decreases n
  {
    if n < 10 then [DigitChar(n)] else NatToDecimal(n / 10) + [DigitChar(n % 10)]
  }

  function IntToDecimal(n: int): string
  {
    if n < 0 then "-" + NatToDecimal(-n) else NatToDecimal(n)
  }

  /** `String(v)`: arrays are joined with "," with `null` and `undefined`
      elements written as "", objects print as "[object Object]". */
  function ToJsString(v: Value): string
  {
    match v
    case Str(s) => s
    case Num(n) => IntToDecimal(n)
    case Bool(b) => if b then "true" else "false"
    case Null => "null"
    case Undef => "undefined"
    case Arr(a) =>
      Text.Join(seq(|a|, i requires 0 <= i < |a| =>
                      if IsNullish(a[i]) then "" else ToJsString(a[i])), ",")
    case Obj(_) => "[object Object]"
    case CtxRef => "[object Object]"
  }

  /** The key `obj[k]` uses: the string conversion of `k`, so a missing
      key (`undefined`) names the property "undefined". */
  function PropertyKey(k: Value): string
  {
    ToJsString(k)
  }

  /** `context[k]`: `undefined` when the key is absent. */
  function Get(ctx: Context, k: Value): Value
  {
    var key := PropertyKey(k);
    if key in ctx then ctx[key] else Undef
  }

  /** `v.name` for a descriptor field; on anything but an object no field
      the pipeline reads is present. Callers rule out `null`/`undefined`
      first, where JavaScript throws. */
  function Field(v: Value, name: string): Value
  {
    match v
    case Obj(m) => if name in m then m[name] else Undef
    case _ => Undef
  }

  /** The elements `for (const x of v)` visits: an array's elements, or a
      string's characters as one-character strings; `None` when `v` is
      not iterable (the loop throws a TypeError). */
  function Iterate(v: Value): Option<seq<Value>>
  {
    match v
    case Arr(a) => Some(a)
    case Str(s) => Some(seq(|s|, i requires 0 <= i < |s| => Str([s[i]])))
    case _ => None
  }

  datatype Option<T> = None | Some(value: T)

  // ---------------------------------------------------------------------
  // Numeric conversion: what `<` and `>` apply to operands that are not
  // both strings

  /** ToPrimitive with the default hint: arrays and objects become their
      string form, every primitive stays as it is. */
  function ToPrimitive(v: Value): (r: Value)
    ensures !r.Arr? && !r.Obj? && !r.CtxRef?
    ensures r.Str? ==> r.s == ToJsString(v)
    ensures v.Arr? || v.Obj? || v.CtxRef? || r == v
  {
    if v.Arr? || v.Obj? || v.CtxRef? then Str(ToJsString(v)) else v
  }

  /** The white space `Number(text)` ignores around a number: TAB to CR,
      space, no-break space, the byte order mark and the line and
      paragraph separators. */
  predicate IsJsSpace(c: char)
  {
    c == ' ' || ('\t' <= c <= '\r') || c as int == 0xA0 || c as int == 0xFEFF
    || c as int == 0x2028 || c as int == 0x2029
  }

  function TrimStart(s: string): (r: string)
    ensures |r| <= |s| && r == s[|s| - |r|..]
    ensures r == [] || !IsJsSpace(r[0])
  {
    if s != [] && IsJsSpace(s[0]) then TrimStart(s[1..]) else s
  }

  function TrimEnd(s: string): (r: string)
    ensures |r| <= |s| && r == s[..|r|]
    ensures r == [] || !IsJsSpace(r[|r| - 1])
  {
    if s != [] && IsJsSpace(s[|s| - 1]) then TrimEnd(s[..|s| - 1]) else s
  }

  predicate IsDigit(c: char)
  {
    '0' <= c <= '9'
  }

  /** A non-empty run of decimal digits. */
  predicate AllDigits(s: string)
  {
    |s| > 0 && forall i :: 0 <= i < |s| ==> IsDigit(s[i])
  }

  /** The value of a run of decimal digits, read left to right. */
  function DigitsValue(s: string): nat
    requires forall i :: 0 <= i < |s| ==> IsDigit(s[i])
  {
    if s == [] then 0
    else
      assert IsDigit(s[|s| - 1]);
      10 * DigitsValue(s[..|s| - 1]) + (s[|s| - 1] as int - '0' as int)
  }

  /** `Number(text)` on the integer texts the model's numbers cover: once
      surrounding white space is trimmed, "" is 0 and an optional sign
      followed by decimal digits is that integer. Any other text is NaN,
      written `None`. */
  function StringToNumber(s: string): Option<int>
  {
    var t := TrimEnd(TrimStart(s));
    if t == [] then Some(0)
    else if AllDigits(t) then Some(DigitsValue(t))
    else if t[0] == '+' && AllDigits(t[1..]) then Some(DigitsValue(t[1..]))
    else if t[0] == '-' && AllDigits(t[1..]) then Some(0 - DigitsValue(t[1..]))
    else None
  }

  /** `Number(v)`; `None` is NaN. Booleans count as 0 and 1, `null` as 0,
      `undefined` is NaN, and arrays and objects go through their string
      form. */
  function ToNumber(v: Value): Option<int>
  {
    match v
    case Num(n) => Some(n)
    case Bool(b) => Some(if b then 1 else 0)
    case Null => Some(0)
    case Undef => None
    case Str(s) => StringToNumber(s)
    case _ => StringToNumber(ToJsString(v))
  }

  lemma {:induction false} NatToDecimalDigits(n: nat)
    ensures AllDigits(NatToDecimal(n))
    ensures DigitsValue(NatToDecimal(n)) == n
    decreases n
  {
    var t := NatToDecimal(n);
    if n < 10 {
      assert t == [DigitChar(n)];
      assert t[..0] == [];
    } else {
      NatToDecimalDigits(n / 10);
      var p := NatToDecimal(n / 10);
      assert t == p + [DigitChar(n % 10)];
      assert t[..|t| - 1] == p;
    }
  }

  /** Trimming leaves a text alone when neither end is white space. */
  lemma TrimUntouched(t: string)
    requires t != [] && !IsJsSpace(t[0]) && !IsJsSpace(t[|t| - 1])
    ensures TrimEnd(TrimStart(t)) == t
  {
  }

  /** Reading back a printed integer gives the integer: `Number(String(n))
      === n`. */
  lemma IntToDecimalRoundTrip(n: int)
    ensures StringToNumber(IntToDecimal(n)) == Some(n)
    ensures ToNumber(Str(IntToDecimal(n))) == Some(n)
  {
    var m: nat := if n < 0 then -n else n;
    NatToDecimalDigits(m);
    var d := NatToDecimal(m);
    var t := IntToDecimal(n);
    assert t == if n < 0 then "-" + d else d;
    assert IsDigit(d[|d| - 1]);
    assert t[|t| - 1] == d[|d| - 1];
    assert t[0] == '-' || IsDigit(t[0]);
    TrimUntouched(t);
    if n < 0 {
      assert t[1..] == d;
      assert !AllDigits(t);
    }
  }

  // ---------------------------------------------------------------------
  // Height: the measure that makes the interpreter terminate

  ghost predicate IsMaxOf(m: nat, s: set<nat>)
  {
    m in s && forall y :: y in s ==> y <= m
  }

  lemma {:induction false} MaxExists(s: set<nat>)
    requires s != {}
    ensures exists m: nat :: IsMaxOf(m, s)
    decreases s
  {
    var x :| x in s;
    if s != {x} {
      MaxExists(s - {x});
      var m: nat :| IsMaxOf(m, s - {x});
      forall y | y in s
        ensures y <= (if x > m then x else m)
      {
        if y != x {
          assert y in s - {x};
        }
      }
      if x > m {
        assert IsMaxOf(x, s);
      } else {
        assert IsMaxOf(m, s);
      }
    } else {
      assert IsMaxOf(x, s);
    }
  }

  ghost function SetMax(s: set<nat>): (m: nat)
    ensures forall y :: y in s ==> y <= m
    ensures s != {} ==> m in s
  {
    if s == {} then 0
    else
      MaxExists(s);
      var m: nat :| IsMaxOf(m, s);
      m
  }

  /** The heights of a list's elements. */
  ghost function Heights(a: seq<Value>): set<nat>
  {
    set i | 0 <= i < |a| :: Height(a[i])
  }

  /** The heights of an object's field values. */
  ghost function FieldHeights(v: Value): set<nat>
    requires v.Obj?
    decreases v, 0
  {
    set k | k in v.fields :: Height(v.fields[k])
  }

  /** Nesting height: `null`/`undefined` 0, other scalars 1, a container
      one more than its highest element. */
  ghost function Height(v: Value): nat
    decreases v, 1
  {
    match v
    case Null => 0
    case Undef => 0
    case Arr(a) => 1 + SetMax(Heights(a))
    case Obj(_) => 1 + SetMax(FieldHeights(v))
    case _ => 1
  }

  /** The height of the highest value in a list. */
  ghost function SeqHeight(a: seq<Value>): nat
  {
    SetMax(Heights(a))
  }

  lemma ElementHeight(a: seq<Value>, i: nat)
    requires i < |a|
    ensures Height(a[i]) <= SeqHeight(a)
  {
    assert Height(a[i]) in Heights(a);
  }

  lemma TailHeight(a: seq<Value>)
    requires |a| > 0
    ensures SeqHeight(a[1..]) <= SeqHeight(a)
  {
    var t := a[1..];
    if |t| > 0 {
      assert Height(t[0]) in Heights(t);
      assert SeqHeight(t) in Heights(t);
      var i :| 0 <= i < |t| && Height(t[i]) == SeqHeight(t);
      assert t[i] == a[i + 1];
      ElementHeight(a, i + 1);
    }
  }

  /** A field of a non-nullish value is strictly lower than the value. */
  lemma FieldHeight(v: Value, name: string)
    requires !IsNullish(v)
    ensures Height(Field(v, name)) < Height(v)
  {
    if v.Obj? && name in v.fields {
      assert Height(v.fields[name]) in FieldHeights(v);
    }
  }

  /** The elements a `for ... of` visits are no higher than the iterable. */
  lemma IterateHeight(v: Value)
    requires Iterate(v).Some?
    ensures SeqHeight(Iterate(v).value) <= Height(v)
  {
    var xs := Iterate(v).value;
    if |xs| > 0 {
      assert Height(xs[0]) in Heights(xs);
      assert SeqHeight(xs) in Heights(xs);
      var i :| 0 <= i < |xs| && Height(xs[i]) == SeqHeight(xs);
      if v.Arr? {
        assert Height(xs[i]) in Heights(v.items);
      }
    }
  }
}
